=== FILE: README.md ===
# Tween.cs in Dafny

A model of the core of `Tween.cs`, a small fluent tweening library for
Unity. A `Tween` is built by chaining calls: `Duration`, one `To`/`Add`
per animated channel, `StopWhen`, `ThenDestroy`, and `Then` to begin the
next phase. It then runs as a coroutine that advances the phases one
after another, frame by frame.

The model covers four layers:

- **Easing** (`easings.dfy`). This is `Easing.Ease`, the clamp that pins
  fractions at or below 0 to 0 and fractions at or above 1 to 1. It also
  covers `Linear`/`Default` and the polynomial curve families: Quad, Cubic,
  Quart, Quint, Back and Bounce, each with In, Out, InOut and OutIn.
- **Lazy value ranges** (`ranges.dfy`). These are `ValueRange<T>`,
  `FromToValueRange<T>` and `AddValueRange<T>`.
  - The start value is read on the first read of `From`, or on the first
    read of an offset range's `To`, and then cached.
  - A counter in the range state records how often the provider ran.
- **Channels and one step** (`values.dfy`, `tweeners.dfy`).
  - The typed tweeners (`Float`, `Int32`, `Vector3`, `Color`,
    `Quaternion`) become one `Value` sum type, with the per-type
    `LerpUnclamped` and `Add`.
  - The `To`/`Add`/`From(...)` builders and `TweenValue` are modelled.
  - The sub-channel tweeners (`X/Y/Z`, `R/G/B/A`, `Euler`) are channels
    derived from a parent getter and setter.
- **Phases and the coroutine** (`groups.dfy`, `builder.dfy`,
  `sequencer.dfy`, `runs.dfy`).
  - `TweenerGroup` and the builder's phase list are modelled.
  - `Tween.Coroutine` becomes a step function `Resume(run, dt)`. Each call
    runs what one frame of the coroutine runs, up to the next `yield`.
  - The model records every step, snap and destroy as an event.

Further files:

- `probing.dfy` models the component searches behind `Tween.Color`,
  `Tween.Alpha` and `Component<TComponent, TTweener>`.
- `int32_overflow.dfy` holds the finding below.
- `scenarios.dfy` works through concrete runs.

Other modelling choices:

- The world (the scene, the game object's properties) is a type parameter
  `W`. Getters, setters, value providers and stop predicates are functions
  over `W`.
- Time is counted in integer ticks. Each frame's `Time.deltaTime` is a
  parameter of `Resume`.
- A frame (`Sequencer.Frame`) is what the rest of the game did to the
  world since the previous frame, as a function `W -> W`, followed by the
  delta. A stop predicate can therefore be made true from outside the
  tween (`Scenarios.HostChangeStopsThePhase`).
- Exceptions are an `Outcome` value:
  - `NotSupported` for `NotSupportedException`;
  - `MissingComponent` for `InvalidOperationException`.
- A run that throws ends with status `Faulted`. The world is the one
  left by the setters of the tweeners before the throwing one, which
  have already run (`Scenarios.EarlierWritesSurviveTheThrow`).

Three behaviours of the code worth knowing:

- **When the start value is read.** A range reads its start value at the
  first step, not when `To` is called. A value changed between
  configuration and the first frame is therefore the value the tween
  starts from (`Scenarios.StartIsReadAtFirstStep`).
- **When a quaternion `Add` fails.** A quaternion `Add` is accepted by the
  builder. It throws only when its range is first read, at the first step
  (`Tweeners.QuaternionAddThrowsOnFirstStep`).
- **Rounding of integer blends.** The integer blend truncates toward zero,
  that is toward the start value, as the C# `(int)` cast does. It does not
  take the floor (`Values.Int32Lerp`, `Scenarios.Int32RoundsTowardStart`).

## Model

| member | source | states |
|---|---|---|
| Easings.Ease | Tween.cs:208-219 | Any fraction at or below 0 eases to exactly 0, at or above 1 to exactly 1, and strictly inside to the raw curve. |
| Easings.LinearIsClamp | Tween.cs:221-226 | `Default` is `Linear`. It eases every fraction to itself clamped to [0, 1], and leaves fractions inside [0, 1] unchanged. |
| Easings.CurvesMeetClamp | Tween.cs:242-497 | Every polynomial curve passes through (0, 0) and (1, 1), so the clamp joins it without a jump. |
| Easings.InReflectsOut | Tween.cs:242-497 | Each In curve is its Out curve turned half a turn about (1/2, 1/2): In(t) = 1 - Out(1 - t). |
| Easings.HalvesCompose | Tween.cs:247-263 | InOut is In over the first half and Out over the second, each squeezed into half the time and height. OutIn is the mirror composition. |
| Easings.HalfwayIsHalf | Tween.cs:304-314 | Every InOut and OutIn curve is point-symmetric about (1/2, 1/2) and eases the midpoint to exactly 1/2. |
| Easings.BackOvershoots | Tween.cs:362-365 | BackIn goes below 0 and BackOut above 1 inside the open interval (0, 1). The clamp never touches the curve there. |
| Values.Trunc | Tween.cs:790 | The `(int)` conversion truncates toward zero and stays within one of its argument. |
| Values.Int32Lerp | Tween.cs:788-791 | The integer blend hits both ends at t = 0 and t = 1. For t in [0, 1] it stays between the ends. It never passes the exact blend and misses it by less than one, toward `from`. |
| Values.Lerp | Tween.cs:772-775 | `LerpUnclamped` of each type: at every `t`, inside [0, 1] or not, each component is `from + (to - from) * t`, and an `int` takes the truncated blend of `Int32Lerp`. At t = 1 the blend is exactly `to`, and at t = 0 exactly `from`. |
| Values.LerpIsUnclamped | Tween.cs:772-775 | The float blend stays between the ends only for t in [0, 1]. Below 0 it goes past `from`, and above 1 past `to`. |
| Values.Add | Tween.cs:777-780 | Adding throws `NotSupported` exactly for a quaternion (or mismatched shapes). Otherwise the result is the sum, component by component, with the operand's shape. |
| Values.AddThenLerp | Tween.cs:772-780 | Blending from `u` toward `Add(u, d)` at fraction `t` moves every component by `t` times `d`'s, so an offset tween has covered `t` of its offset. |
| Values.AddLaws | Tween.cs:793-796 | `Add` is commutative and has a zero on every type that supports it. |
| Values.WithComponent | Tween.cs:808-813 | Overwriting one component sets it, keeps every other component, and keeps the value when the component already holds `c`. |
| Tweeners.SubChannelWritesOneComponent | Tween.cs:804-840 | Writing a sub-channel (`X/Y/Z`, `R/G/B/A`) reads back what was written. It changes only the one component of the parent, and changes nothing when the component already holds the value. |
| Tweeners.DerivedReadsBack | Tween.cs:960-969 | A derived channel such as `Euler` reads back a written value whenever its projection recovers what its injection stored. |
| Tweeners.NewChannel | Tween.cs:580 | A new tweener starts with `Easing.Default`, which is `Linear`. |
| Tweeners.Configure | Tween.cs:605-685 | `To`/`Add`/`From(a).To`/`From(a).Add` set the easing only when one is given, and install a fresh range with the given target. The range is not yet read and its provider has run 0 times. The provider is the getter, or the constant `a`. |
| Tweeners.ExplicitStartIgnoresWorld | Tween.cs:665-683 | A `From(a)` range starts at `a` whatever the world is. |
| Tweeners.TweenValue | Tween.cs:591-595 | One step writes, through the setter, the eased blend of the captured ends. The start is captured in the world of the first step and never changes after. At fraction 1 or more it writes exactly `To`. It throws exactly when an uncaptured offset range has no `Add`. |
| Tweeners.BackInDipsBelowStart | Tween.cs:591-595 | Because the blend is unclamped, a float tweened `To` a higher value with `Back` `In` is, halfway through, below where it started, whatever the channel. |
| Tweeners.QuaternionAddThrowsOnFirstStep | Tween.cs:978-981 | A quaternion channel configured with `Add` throws `NotSupported` at its first step, at any fraction. |
| Tweeners.EndStepLandsOnTo | Tween.cs:591-595 | A step at or past the end leaves a read-back channel reading exactly `To`. |
| Ranges.Capture | Tween.cs:713-717 | Initialising a range calls the provider in the current world and caches both ends. It keeps the invariant and throws exactly when the offset's `Add` throws. |
| Ranges.ReadFrom | Tween.cs:698-711 | The first `From` read returns the provider's value in the current world. Every later read returns the cached value and leaves the range unchanged. It throws exactly when a lazy `Add` throws. |
| Ranges.ReadTo | Tween.cs:729-765 | A fixed `To` is returned untouched. An offset `To` forces the capture and returns `From + offset`, the same value on every read. |
| Ranges.ReadAll | Tween.cs:687-765 | A run of reads keeps the range invariant and yields one value per read. Every read returns the matching end of the range as it stands after the run, so all reads of one end agree. A captured range is left as it is, and only an uncaptured offset range can throw. |
| Ranges.CachedReadsAreStable | Tween.cs:698-765 | Once captured, a range answers every later read of either end from its cache, in any world, and its state never changes. |
| Ranges.ProviderRunsAtMostOnce | Tween.cs:702-716 | Over any sequence of reads the provider runs at most once. |
| Groups.StepAll | Tween.cs:560-566 | The tweeners step in insertion order. The resulting world is every setter applied in turn to the world the previous one left, and a tweener not yet started captures its start in the world the tweeners before it left. Each writes the eased blend of its own ends, and the first to throw stops the loop. The setters before it have already run, and the pass's world is theirs. |
| Groups.Advance | Tween.cs:560-566 | `Tween(fraction)` keeps the phase's settings and every tweener's channel, easing and target. The world is the setters applied in order, and each new start is read in the world the earlier setters left. At fraction 1 or more every channel is written its `To`. A fully captured phase is unchanged. An exception is exactly the one that stopped `StepAll`, and it comes only from an uncaptured offset. |
| Groups.WritesKeepRead | Tween.cs:560-566 | Setters that never change what a channel reads leave that channel's reading unchanged, however many of them run. |
| Groups.WritesSplit | Tween.cs:560-566 | A phase's writes are the writes before tweener `k`, then `k`'s own write, then the writes after it. |
| Groups.NextPhaseStartsAtPreviousTo | Tween.cs:179-182 | Take a phase snapped to `To` and tweener `j` of the next phase, which starts lazily from the channel of tweener `k` of the snapped phase. Suppose the channel reads back what it is given and no setter in between touches it. Then the captured start is exactly tweener `k`'s `To`. |
| Builder.New | Tween.cs:14 | A new tween has one phase with zero duration, no tweeners, no stop predicate and no destroy flag. |
| Builder.Apply | Tween.cs:29-64 | `Then` appends a fresh phase. Every other call leaves the earlier phases alone and changes exactly one field of the last phase: it sets the duration, appends the tweener, sets the predicate or sets the destroy flag. |
| Builder.ConfigureTouchesOnlyLastPhase | Tween.cs:154-157 | After any chain of calls there is one new phase per `Then`, and the phases before the last are untouched. |
| Builder.ChainWithoutThenStaysInPhase | Tween.cs:154-157 | A chain without `Then` only reconfigures the current phase. |
| Builder.StopWhenReplaces | Tween.cs:550-558 | A second `StopWhen` replaces the first. A phase without a predicate never stops. |
| Builder.Animate | Tween.cs:636-639 | Adding a tweener appends exactly the configured tweener, with a fresh range, to the current phase. The phase's other settings and the earlier phases are unchanged, and every range in the tween stays fresh. |
| Sequencer.Start | Tween.cs:164-167 | A run starts at the first phase of a copy of the phase list, with zero elapsed time and no events. |
| Sequencer.StepPhase | Tween.cs:171-177 | One loop iteration adds the delta and advances the phase with `elapsed / duration`. The run takes the phase and the world `Advance` leaves and records the step, or faults with its phases and trace unchanged when a tweener throws. The faulted run's world is the one the setters before the throwing tweener left. |
| Sequencer.Leave | Tween.cs:184-188 | After a phase, a destroy flag ends the run with a destroy event. Otherwise the run moves to the next phase, or finishes after the last. |
| Sequencer.Finish | Tween.cs:179-188 | After the loop, a phase that should stop is left without a snap. Otherwise the phase is advanced to fraction 1: the run takes the resulting phase and world, records the snap, and leaves. It faults exactly when that snap throws, with its phases and trace unchanged, in the world the setters before the throwing tweener left. |
| Sequencer.Resume | Tween.cs:164-190 | A frame keeps every phase's settings and every tweener's channel, easing, provider and target, and never changes a range that has captured its start. It only extends the event list. A run that is no longer running is unchanged. How the frame's delta moves the elapsed time and the step's fraction is stated by `Sequencer.ResumeEndsOnAStep`. |
| Sequencer.ResumeEndsOnAStep | Tween.cs:169-177 | A frame that leaves the run going stops at the `yield` inside the loop: its last event is a loop step of the current phase, whose duration is positive. The frame's delta was added to the phase's elapsed time, which restarts at 0 when the frame moved to a new phase, and the step was taken at `elapsed / duration`. |
| Sequencer.DriveAppend | Tween.cs:164-190 | Running two batches of frames one after the other is running them as one batch. |
| Sequencer.Host | Tween.cs:176 | Between two frames, while the coroutine waits at its `yield`, the rest of the game may change the world of a running run; nothing else about the run changes, and a run that has ended is left as it is. |
| Sequencer.HostKeeps | Tween.cs:176 | A change of the world between frames preserves the run invariant, since no recorded event depends on the current world. |
| Sequencer.Drive | Tween.cs:164-190 | Frames, each a change of the world by the rest of the game followed by a delta, only extend the event list, never move back a phase, and keep every phase's settings. A finished, destroyed or faulted run stays as it is. |
| Sequencer.ResumeKeeps | Tween.cs:164-190 | One frame preserves the run invariant, so every recorded event matches what the phase wrote. |
| Sequencer.DriveKeeps | Tween.cs:164-190 | Any number of frames preserves the run invariant, whatever the rest of the game does to the world between them. |
| Runs.StartsReadAtMostOnce | Tween.cs:698-717 | During a whole run every range's provider runs at most once. |
| Runs.StartIsKept | Tween.cs:698-717 | Once a tweener has captured its start, later frames never change its range. |
| Runs.StepsAreProper | Tween.cs:171-177 | Every loop step belongs to a phase of the tween with a positive duration, so no step divides by zero. It wrote, per tweener in order, the eased blend of that tweener's captured ends at the step's fraction, and each tweener keeps the channel, easing and target it was configured with. |
| Runs.SnapsWriteTo | Tween.cs:179-182 | Every snap wrote each tweener's `To`, which for a `To(v)` range is the configured `v`, and happened only once its phase was over. |
| Runs.DestroyEndsEverything | Tween.cs:184-188 | A destroy event is the last and only one, for a phase flagged `ThenDestroy`. No later phase ran, and further frames change nothing. |
| Runs.DestroyedMeansDestroyEvent | Tween.cs:184-188 | A destroyed run ends with the destroy event of its current phase. |
| Probing.FirstMatch | Tween.cs:104-120 | The reference answer is the position of the first accepted component, and none exists exactly when no component is accepted. |
| Probing.Probe | Tween.cs:104-120 | The component loop returns the reference answer, or `MissingComponent` when nothing matches. |
| Probing.ColorSource | Tween.cs:101-121 | `Color` takes the first `Graphic` or `SpriteRenderer` in component order, and throws when there is none. |
| Probing.AlphaSource | Tween.cs:124-152 | `Alpha` takes the first `Graphic`, `SpriteRenderer` or `CanvasGroup`, and throws when there is none. |
| Probing.ComponentOf | Tween.cs:71-79 | `Component<TComponent, TTweener>` takes the first component of the type, and throws when there is none. |
| Probing.AlphaFollowsColor | Tween.cs:101-149 | `Alpha` picks the same component as `Color` unless a `CanvasGroup` comes first, and it fails only where `Color` fails too. |
| Int32Overflow.Wrap32 | Tween.cs:788-791 | Unchecked `int` arithmetic lands in the 32-bit range, agrees modulo 2^32, and is the identity on values already in range. |
| Int32Overflow.AsWrittenLeavesTheRange | Tween.cs:788-791 | As written, the blend halfway from -2 to `int.MaxValue` lands below both ends. |
| Int32Overflow.AsWrittenAgreesWithoutOverflow | Tween.cs:788-791 | Whenever `to - from` fits in an `int`, the code as written and the corrected blend agree. |
| Int32Overflow.CorrectedStaysInRange | Tween.cs:788-791 | The corrected blend of two `int`s at a fraction in [0, 1] stays between them, and so in range. |
| Scenarios.StartIsReadAtFirstStep | Tween.cs:616-621 | A range configured with `To(100)` and first stepped when the value is 99 starts from 99. |
| Scenarios.AddRunsFromCurrentToOffset | Tween.cs:629-634 | `Add(5)` on a channel reading 10 runs from 10 to 15. |
| Scenarios.Int32RoundsTowardStart | Tween.cs:788-791 | A third of the way from 0 to -10 is -3, and from 0 to 10 is 3. |
| Scenarios.TwoPhasesEndAtFifteen | Tween.cs:164-190 | `To(10)`, then `Then`, then `Add(5)`, driven by frames of 10, 10 and 1 ticks, steps to 10, snaps, starts the second phase at 10, steps to 15, snaps and finishes at 15. |
| Scenarios.StopSkipsTheSnap | Tween.cs:171-182 | Once the stop predicate holds after a step to 6, the phase is left at 6 without a snap to `To`. |
| Scenarios.DestroyEndsTheRun | Tween.cs:171-188 | A zero-duration phase takes no step, is snapped in the first frame, and its destroy flag ends the run before the next phase. |
| Scenarios.QuaternionAddFaultsTheRun | Tween.cs:978-981 | A run whose only tweener is a quaternion `Add` faults in its first frame and leaves the world as it was. |
| Scenarios.EarlierWritesSurviveTheThrow | Tween.cs:560-566 | With a float `To(10)` before a quaternion `Add` in one phase of duration 10, a frame of 5 writes 5 to the float and then faults. The float keeps the 5, the rotation is untouched, and no event is recorded. |
| Scenarios.HostChangeStopsThePhase | Tween.cs:171-182 | After a step to 2, the rest of the game sets the value to 7. The next frame sees the stop predicate hold and ends the phase with neither a step nor a snap. |

## Left out

- Unity itself is not modelled: `GameObject`, `MonoBehaviour.StartCoroutine`, `Object.Destroy`, `WaitForEndOfFrame` and `Time.deltaTime`. The world is abstract, each frame's delta and what the rest of the game does to the world are parameters, and destruction is an event in the trace. After a run ends, later changes to the world are not recorded in it.
- Floating point is not modelled. Fractions, blends and curves are exact `real` arithmetic, and the `(float)` conversion of the fraction is the identity.
- Easings.Ease: the transcendental families are not transcribed, because `Mathf.Sin/Cos/Exp/Sqrt` have no exact real counterpart. These are Sine, Expo, Circ and Elastic (`Tween.cs:228-240`, `Tween.cs:316-360`, `Tween.cs:389-428`). They and any caller-supplied curve are `Curve(raw)` with the raw curve injected, so the clamp is proved for them but nothing about their shape.
- Values.Lerp: the quaternion blend is component-wise over four reals. It does not model `Quaternion.LerpUnclamped`'s normalisation, because that needs a square root.
- Tweeners.Euler: the conversion between a rotation and its Euler angles is a pair of injected functions, for the same reason.
- Values.Int32Lerp: for an eased fraction outside [0, 1], which the Back curves produce, the blend is not reduced to 32 bits. There C#'s `(int)` cast of an out-of-range `float` is unspecified and the sum wraps; the model returns the exact truncated blend.
- Values.Add: the model's `int` addition does not wrap at 32 bits. Only the blend's overflow is modelled, in `Int32Overflow`.
- The `Vector2` overloads of `Vector3Tweener` (`Tween.cs:843-874`) are left out. They read the current `z` eagerly when the call is made.
- The per-type tweeners are one `Value` sum type. Mixed shapes, which C#'s types rule out, have a fallback: `Lerp` returns `to`, and `Add` throws.
- `TweenerFactory` and `ComponentTweeners<T>` (`Tween.cs:984-1134`) are not modelled beyond what `NewChannel` and `Derived` state. They only wrap a getter and a setter.
- Mutating a phase after its run has started is left out. So are starting the same `Tween` twice and adding one tweener object twice: in C# these share mutable objects, while the model copies phases by value when the run starts.
- Probing.ColorSource: the tweener built on the chosen component is not modelled. The result is which component and which kind; `Alpha` on a colour component is the `A` sub-channel (`Tweeners.SubChannel`).
- Sequencer.StepPhase: after a throw, the run keeps the phases it had before the step. Starts captured by the tweeners that ran before the throwing one are dropped. In C# they stay captured inside objects that only a restart of the same `Tween` could read again, and restarts are left out above.
- Sequencer.Finish: after a throw in the snap, the run likewise keeps the phases it had before the snap, for the same reason.
- `TimeSpan` precision is left out. Durations and deltas are integer ticks, not the seconds `Duration(float)` converts from.

## Findings

| source | as written | input that shows it | evidently intended | confidence | as-written member | corrected member |
|---|---|---|---|---|---|---|
| Tween.cs:790 | `from + (int) ((to - from) * t)` subtracts in 32-bit `int`, which wraps when the ends are more than `int.MaxValue` apart | from = -2, to = 2147483647, t = 0.5: `to - from` wraps to -2147483647. The result is about -1073741825, below both ends (with exact arithmetic; single precision moves it by one). | a blend between `from` and `to` for t in [0, 1] | not executed | Int32Overflow.AsWrittenLeavesTheRange | Values.Int32Lerp |

=== FILE: builder.dfy ===
/** The configuration side of `Tween`: a list of phases (`TweenerGroup`s)
    that starts with one empty phase; `Then` appends a new phase and every
    other configuration call changes the last phase only. */
module Builder {
  import opened Results
  import opened Easings
  import opened Ranges
  import opened Tweeners
  import opened Groups

  /** The `groups` list, split as the finished phases and the current,
      last one, so that it can never be empty. */
  datatype Tween<!W> = Tween(earlier: seq<Group<W>>, current: Group<W>)

  /** The phases in order. */
  function Phases<W>(t: Tween<W>): (gs: seq<Group<W>>)
    ensures |gs| == |t.earlier| + 1 && gs[|gs| - 1] == t.current
  {
    t.earlier + [t.current]
  }

  /** `new Tween(gameObject)`: one phase, with zero duration, no tweeners,
      no stop predicate and no destroy flag. */
  function New<W>(): (t: Tween<W>)
    ensures |Phases(t)| == 1
    ensures Phases(t)[0].duration == 0 && Phases(t)[0].tweeners == []
    ensures Phases(t)[0].stopWhen.None? && !Phases(t)[0].thenDestroy
  {
    Tween([], NewGroup())
  }

  /** One configuration call, in the order a caller chains them. */
  datatype Call<!W> =
    | SetDuration(ticks: int)           // `Duration(...)`
    | AddTweener(tweener: Tweener<W>)   // `AddTweener`, called by every `To`/`Add`
    | SetStop(stop: W -> bool)          // `StopWhen(...)`
    | SetDestroy                        // `ThenDestroy()`
    | Then                              // `Then`

  /** The effect of one call on the current phase. */
  function Reconfigure<W>(g: Group<W>, c: Call<W>): Group<W>
    requires !c.Then?
  {
    match c
    case SetDuration(d) => g.(duration := d)
    case AddTweener(tw) => g.(tweeners := g.tweeners + [tw])
    case SetStop(p) => g.(stopWhen := Some(p))
    case SetDestroy => g.(thenDestroy := true)
  }

  /** Apply one call: `Then` appends a fresh phase, every other call
      reconfigures the last phase and leaves all earlier ones alone. */
  function Apply<W>(t: Tween<W>, c: Call<W>): (u: Tween<W>)
    ensures c.Then? ==> |Phases(u)| == |Phases(t)| + 1 && Phases(u)[..|Phases(t)|] == Phases(t)
    ensures c.Then? ==> u.current == NewGroup()
    ensures !c.Then? ==> |Phases(u)| == |Phases(t)| && Phases(u)[..|Phases(t)| - 1] == Phases(t)[..|Phases(t)| - 1]
    ensures c.SetDuration? ==> u.current == t.current.(duration := c.ticks)
    ensures c.AddTweener? ==> u.current == t.current.(tweeners := t.current.tweeners + [c.tweener])
    ensures c.SetStop? ==> u.current == t.current.(stopWhen := Some(c.stop))
    ensures c.SetDestroy? ==> u.current == t.current.(thenDestroy := true)
  {
    if c.Then? then Tween(t.earlier + [t.current], NewGroup())
    else t.(current := Reconfigure(t.current, c))
  }

  /** Apply a chain of calls from left to right. */
  function ApplyAll<W>(t: Tween<W>, cs: seq<Call<W>>): Tween<W>
    decreases |cs|
  {
    if cs == [] then t else ApplyAll(Apply(t, cs[0]), cs[1..])
  }

  /** The number of `Then` calls in a chain. */
  function Thens<W>(cs: seq<Call<W>>): nat
    decreases |cs|
  {
    if cs == [] then 0 else (if cs[0].Then? then 1 else 0) + Thens(cs[1..])
  }

  /** However a tween is configured, the phases it had are never touched
      again except the last, and there is one new phase per `Then`. */
  lemma {:induction false} ConfigureTouchesOnlyLastPhase<W>(t: Tween<W>, cs: seq<Call<W>>)
    ensures |Phases(ApplyAll(t, cs))| == |Phases(t)| + Thens(cs)
    ensures Phases(ApplyAll(t, cs))[..|Phases(t)| - 1] == Phases(t)[..|Phases(t)| - 1]
    decreases |cs|
  {
    if cs != [] {
      var u := Apply(t, cs[0]);
      ConfigureTouchesOnlyLastPhase(u, cs[1..]);
      assert Phases(u)[..|Phases(t)| - 1] == Phases(t)[..|Phases(t)| - 1] by {
        if cs[0].Then? {
          assert Phases(u)[..|Phases(t)| - 1] == Phases(u)[..|Phases(t)|][..|Phases(t)| - 1];
        }
      }
      assert Phases(ApplyAll(t, cs))[..|Phases(t)| - 1] == Phases(ApplyAll(u, cs[1..]))[..|Phases(u)| - 1][..|Phases(t)| - 1];
    }
  }

  /** A call chain with no `Then` reconfigures the same phase throughout:
      the current phase is the old one with the calls applied in order. */
  function ConfigureAll<W>(g: Group<W>, cs: seq<Call<W>>): Group<W>
    requires Thens(cs) == 0
    decreases |cs|
  {
    if cs == [] then g
    else
      assert !cs[0].Then?;
      ConfigureAll(Reconfigure(g, cs[0]), cs[1..])
  }

  lemma {:induction false} ChainWithoutThenStaysInPhase<W>(t: Tween<W>, cs: seq<Call<W>>)
    requires Thens(cs) == 0
    ensures ApplyAll(t, cs) == Tween(t.earlier, ConfigureAll(t.current, cs))
    decreases |cs|
  {
    if cs != [] {
      assert !cs[0].Then?;
      ChainWithoutThenStaysInPhase(Apply(t, cs[0]), cs[1..]);
    }
  }

  /** `StopWhen` replaces an earlier predicate rather than combining with
      it, and the phase never stops while no predicate has been set. */
  lemma StopWhenReplaces<W>(t: Tween<W>, p: W -> bool, q: W -> bool, w: W)
    ensures Apply(Apply(t, SetStop(p)), SetStop(q)) == Apply(t, SetStop(q))
    ensures ShouldStop(Apply(t, SetStop(q)).current, w) == q(w)
    ensures !ShouldStop(New<W>().current, w)
    ensures !ShouldStop(Apply(t, Then).current, w)
  {
  }

  /** Every range in the tween is fresh: valid and not yet read. This is
      what the builder methods of `Tweener<T>` produce. */
  predicate Unread<W>(t: Tween<W>) {
    forall k, i :: 0 <= k < |Phases(t)| && 0 <= i < |Phases(t)[k].tweeners| ==>
      Valid(Phases(t)[k].tweeners[i].range) && !Phases(t)[k].tweeners[i].range.Captured()
  }

  /** The calls other than `AddTweener` bring in no range, so they keep a
      tween unread. */
  lemma ReconfigureKeepsUnread<W>(t: Tween<W>, c: Call<W>)
    requires Unread(t) && !c.AddTweener?
    ensures Unread(Apply(t, c))
  {
    var u := Apply(t, c);
    forall k, i | 0 <= k < |Phases(u)| && 0 <= i < |Phases(u)[k].tweeners|
      ensures Valid(Phases(u)[k].tweeners[i].range) && !Phases(u)[k].tweeners[i].range.Captured()
    {
      if c.Then? {
        if k < |Phases(t)| {
          assert Phases(u)[k] == Phases(t)[k];
        }
      } else if k < |Phases(t)| - 1 {
        assert Phases(u)[k] == Phases(u)[..|Phases(t)| - 1][k];
      } else {
        assert u.current.tweeners == t.current.tweeners;
      }
    }
  }

  /** `tweener.To(v)`, `tweener.Add(d)`, `tweener.From(a).To(v)` and
      `tweener.From(a).Add(d)`, optionally with an easing: configure the
      channel's range and add it to the current phase. */
  function Animate<W>(t: Tween<W>, c: Channel<W>, m: Motion, e: Option<Easing>): (u: Tween<W>)
    requires Unread(t)
    ensures Unread(u)
    ensures u.earlier == t.earlier
    ensures |u.current.tweeners| == |t.current.tweeners| + 1
    ensures u.current.tweeners[..|t.current.tweeners|] == t.current.tweeners
    ensures u.current.duration == t.current.duration && u.current.thenDestroy == t.current.thenDestroy
    ensures u.current.tweeners[|t.current.tweeners|].range.providerCalls == 0
    // the phase gains exactly the configured tweener; nothing else changes
    ensures u.current == t.current.(tweeners := t.current.tweeners + [Configure(c, m, e)])
  {
    var u := Apply(t, AddTweener(Configure(c, m, e)));
    assert Phases(u)[..|Phases(t)| - 1] == Phases(t)[..|Phases(t)| - 1];
    assert forall k :: 0 <= k < |Phases(t)| - 1 ==> Phases(u)[k] == Phases(t)[k];
    u
  }
}

=== FILE: easings.dfy ===
/** The `Easing` class: a curve over the elapsed fraction, applied through a
    wrapper that pins every input at or below 0 to exactly 0 and every input
    at or above 1 to exactly 1.

    The polynomial families (Quad, Cubic, Quart, Quint, Back, Bounce) are
    transcribed over `real`. The transcendental families (Sine, Expo, Circ,
    Elastic) and any curve a caller hands to the public constructor are
    `Curve(raw)`, with the raw curve injected. */
module Easings {

  datatype Family = Quad | Cubic | Quart | Quint | Back | Bounce

  /** In, Out, InOut (first half In compressed, second half Out compressed)
      and OutIn (the mirror composition). */
  datatype Mode = In | Out | InOut | OutIn

  datatype Easing =
    | Linear
    | Poly(family: Family, mode: Mode)
    | Curve(raw: real -> real)

  /** `Easing.Default`, and the easing every tweener starts with. */
  const Default: Easing := Linear

  // Back-overshoot coefficients.
  const Deviation: real := 1.70158
  const Deviation2: real := 2.70158

  // Bounce segment boundaries and vertex heights.
  const B1: real := 1.0 / 2.75
  const B2: real := 2.0 / 2.75
  const B3: real := 1.5 / 2.75
  const B4: real := 2.5 / 2.75
  const B5: real := 2.25 / 2.75
  const B6: real := 2.625 / 2.75
  const A1: real := 7.5625
  const A2: real := 0.75
  const A3: real := 0.9375
  const A4: real := 0.984375

  /** The four parabolic arcs that every Bounce variant evaluates. */
  function Bounces(t: real): real {
    if t < B1 then A1 * t * t
    else if t < B2 then A1 * (t - B3) * (t - B3) + A2
    else if t < B4 then A1 * (t - B5) * (t - B5) + A3
    else A1 * (t - B6) * (t - B6) + A4
  }

  // Powers, named so that each curve reads as its formula.
  function Sq(x: real): real { x * x }
  function Cube(x: real): real { x * x * x }
  function Pow4(x: real): real { x * x * x * x }
  function Pow5(x: real): real { x * x * x * x * x }

  function InCurve(f: Family, t: real): real {
    match f
    case Quad => Sq(t)
    case Cubic => Cube(t)
    case Quart => Pow4(t)
    case Quint => Pow5(t)
    case Back => Sq(t) * (Deviation2 * t - Deviation)
    case Bounce => 1.0 - Bounces(1.0 - t)
  }

  function OutCurve(f: Family, t: real): real {
    var s := t - 1.0;
    match f
    case Quad => -t * (t - 2.0)
    case Cubic => 1.0 + Cube(s)
    case Quart => 1.0 - Pow4(s)
    case Quint => 1.0 + Pow5(s)
    case Back => 1.0 - Sq(s) * (-Deviation2 * s - Deviation)
    case Bounce => Bounces(t)
  }

  function InOutCurve(f: Family, t: real): real {
    match f
    case Quad =>
      if t < 0.5 then Sq(t) * 2.0
      else var s := t - 1.0; 1.0 - Sq(s) * 2.0
    case Cubic =>
      if t < 0.5 then Cube(t) * 4.0
      else var s := t - 1.0; 1.0 + Cube(s) * 4.0
    case Quart =>
      if t < 0.5 then Pow4(t) * 8.0
      else var s := t * 2.0 - 2.0; (1.0 - Pow4(s)) / 2.0 + 0.5
    case Quint =>
      var u := t * 2.0;
      if u < 1.0 then Pow5(u) / 2.0
      else var s := u - 2.0; (Pow5(s) + 2.0) / 2.0
    case Back =>
      var u := t * 2.0;
      if u < 1.0 then 0.5 * Sq(u) * (Deviation2 * u - Deviation)
      else var s := u - 2.0; 0.5 * (1.0 - Sq(s) * (-Deviation2 * s - Deviation)) + 0.5
    case Bounce =>
      if t < 0.5 then (1.0 - Bounces(1.0 - t * 2.0)) / 2.0
      else Bounces(t * 2.0 - 1.0) / 2.0 + 0.5
  }

  function OutInCurve(f: Family, t: real): real {
    var s := t * 2.0 - 1.0;
    match f
    case Quad =>
      if t < 0.5 then var u := t * 2.0; -0.5 * u * (u - 2.0)
      else 0.5 * Sq(s) + 0.5
    case Cubic => 0.5 * (Cube(s) + 1.0)
    case Quart =>
      if t < 0.5 then -0.5 * Pow4(s) + 0.5
      else 0.5 * Pow4(s) + 0.5
    case Quint => 0.5 * (Pow5(s) + 1.0)
    case Back =>
      if t < 0.5 then 0.5 * (Sq(s) * (Deviation2 * s + Deviation) + 1.0)
      else 0.5 * Sq(s) * (Deviation2 * s - Deviation) + 0.5
    case Bounce =>
      if t < 0.5 then 0.5 * Bounces(t * 2.0)
      else 0.5 - 0.5 * Bounces(1.0 - s) + 0.5
  }

  /** Doubling and negating the argument of a power. */
  lemma PowerLaws(x: real)
    ensures Sq(2.0 * x) == 4.0 * Sq(x) && Sq(-x) == Sq(x)
    ensures Cube(2.0 * x) == 8.0 * Cube(x) && Cube(-x) == -Cube(x)
    ensures Pow4(2.0 * x) == 16.0 * Pow4(x) && Pow4(-x) == Pow4(x)
    ensures Pow5(2.0 * x) == 32.0 * Pow5(x) && Pow5(-x) == -Pow5(x)
  {
    assert Sq(2.0 * x) == 4.0 * Sq(x);
    assert Cube(2.0 * x) == 2.0 * Sq(2.0 * x) * x;
    assert Pow4(2.0 * x) == Sq(2.0 * x) * Sq(2.0 * x);
    assert Pow4(x) == Sq(x) * Sq(x);
    assert Pow5(2.0 * x) == Pow4(2.0 * x) * (2.0 * x);
    assert Pow5(x) == Pow4(x) * x;
  }

  /** The curve an `Easing` wraps, before the clamp. */
  function Raw(e: Easing, t: real): real {
    match e
    case Linear => t
    case Curve(raw) => raw(t)
    case Poly(f, In) => InCurve(f, t)
    case Poly(f, Out) => OutCurve(f, t)
    case Poly(f, InOut) => InOutCurve(f, t)
    case Poly(f, OutIn) => OutInCurve(f, t)
  }

  /** `Easing.Ease`: exactly 0 at or below 0, exactly 1 at or above 1, and
      the raw curve strictly in between, whatever the curve does outside
      the unit interval. */
  function Ease(e: Easing, x: real): (y: real)
    ensures x <= 0.0 ==> y == 0.0
    ensures x >= 1.0 ==> y == 1.0
    ensures 0.0 < x < 1.0 ==> y == Raw(e, x)
  {
    if x <= 0.0 then 0.0
    else if x >= 1.0 then 1.0
    else Raw(e, x)
  }

  /** The identity clamped to the unit interval, stated independently of
      `Ease`. */
  function Clamp01(x: real): real {
    if x < 0.0 then 0.0 else if x > 1.0 then 1.0 else x
  }

  /** `Linear` (and so `Default`) eases every fraction to itself, clamped. */
  lemma LinearIsClamp(x: real)
    ensures Ease(Default, x) == Clamp01(x)
    ensures 0.0 <= x <= 1.0 ==> Ease(Default, x) == x
  {
  }

  /** Every polynomial curve already passes through (0, 0) and (1, 1), so
      the clamp of `Ease` joins it without a jump at either end. */
  lemma CurvesMeetClamp(f: Family, m: Mode)
    ensures Raw(Poly(f, m), 0.0) == 0.0 == Ease(Poly(f, m), 0.0)
    ensures Raw(Poly(f, m), 1.0) == 1.0 == Ease(Poly(f, m), 1.0)
  {
    if f == Bounce {
      BouncesEnds();
    }
  }

  /** The last arc of Bounce ends at exactly 1. */
  lemma BouncesEnds()
    ensures Bounces(0.0) == 0.0 && Bounces(1.0) == 1.0
  {
    assert 1.0 - B6 == 0.125 / 2.75;
    assert A1 * (0.125 / 2.75) == 0.34375;
    assert 0.34375 * (0.125 / 2.75) == 0.015625;
  }

  /** Each In curve is its Out curve rotated half a turn about (1/2, 1/2). */
  lemma InReflectsOut(f: Family, t: real)
    ensures InCurve(f, t) == 1.0 - OutCurve(f, 1.0 - t)
  {
  }

  /** InOut runs In over the first half and Out over the second, each
      compressed into half the time and half the height; OutIn runs Out
      over the first half and In over the second. */
  lemma HalvesCompose(f: Family, t: real)
    ensures InOutCurve(f, t) ==
              if t < 0.5 then InCurve(f, t * 2.0) / 2.0
              else 0.5 + OutCurve(f, t * 2.0 - 1.0) / 2.0
    ensures OutInCurve(f, t) ==
              if t < 0.5 then OutCurve(f, t * 2.0) / 2.0
              else 0.5 + InCurve(f, t * 2.0 - 1.0) / 2.0
  {
    match f
    case Quad => QuadHalves(t);
    case Cubic => CubicHalves(t);
    case Quart => QuartHalves(t);
    case Quint => QuintHalves(t);
    case Back => BackHalves(t);
    case Bounce =>
  }

  lemma QuadHalves(t: real)
    ensures InOutCurve(Quad, t) ==
              if t < 0.5 then InCurve(Quad, t * 2.0) / 2.0
              else 0.5 + OutCurve(Quad, t * 2.0 - 1.0) / 2.0
    ensures OutInCurve(Quad, t) ==
              if t < 0.5 then OutCurve(Quad, t * 2.0) / 2.0
              else 0.5 + InCurve(Quad, t * 2.0 - 1.0) / 2.0
  {
    PowerLaws(t);
  }

  lemma CubicHalves(t: real)
    ensures InOutCurve(Cubic, t) ==
              if t < 0.5 then InCurve(Cubic, t * 2.0) / 2.0
              else 0.5 + OutCurve(Cubic, t * 2.0 - 1.0) / 2.0
    ensures OutInCurve(Cubic, t) ==
              if t < 0.5 then OutCurve(Cubic, t * 2.0) / 2.0
              else 0.5 + InCurve(Cubic, t * 2.0 - 1.0) / 2.0
  {
    PowerLaws(t);
    PowerLaws(t - 1.0);
    assert t * 2.0 == 2.0 * t;
    assert t * 2.0 - 1.0 - 1.0 == 2.0 * (t - 1.0);
  }

  lemma QuartHalves(t: real)
    ensures InOutCurve(Quart, t) ==
              if t < 0.5 then InCurve(Quart, t * 2.0) / 2.0
              else 0.5 + OutCurve(Quart, t * 2.0 - 1.0) / 2.0
    ensures OutInCurve(Quart, t) ==
              if t < 0.5 then OutCurve(Quart, t * 2.0) / 2.0
              else 0.5 + InCurve(Quart, t * 2.0 - 1.0) / 2.0
  {
    PowerLaws(t);
    assert t * 2.0 == 2.0 * t;
    assert t * 2.0 - 1.0 - 1.0 == t * 2.0 - 2.0;
  }

  lemma QuintHalves(t: real)
    ensures InOutCurve(Quint, t) ==
              if t < 0.5 then InCurve(Quint, t * 2.0) / 2.0
              else 0.5 + OutCurve(Quint, t * 2.0 - 1.0) / 2.0
    ensures OutInCurve(Quint, t) ==
              if t < 0.5 then OutCurve(Quint, t * 2.0) / 2.0
              else 0.5 + InCurve(Quint, t * 2.0 - 1.0) / 2.0
  {
    assert t * 2.0 - 1.0 - 1.0 == t * 2.0 - 2.0;
  }

  lemma BackHalves(t: real)
    ensures InOutCurve(Back, t) ==
              if t < 0.5 then InCurve(Back, t * 2.0) / 2.0
              else 0.5 + OutCurve(Back, t * 2.0 - 1.0) / 2.0
    ensures OutInCurve(Back, t) ==
              if t < 0.5 then OutCurve(Back, t * 2.0) / 2.0
              else 0.5 + InCurve(Back, t * 2.0 - 1.0) / 2.0
  {
    var s := t * 2.0 - 1.0;
    assert t * 2.0 - 1.0 - 1.0 == t * 2.0 - 2.0;
    assert Sq(s) * (Deviation2 * s + Deviation) == -(Sq(s) * (-Deviation2 * s - Deviation));
  }

  /** Every InOut and OutIn curve is point-symmetric about (1/2, 1/2), so
      each eases the midpoint to exactly 1/2. */
  lemma HalfwayIsHalf(f: Family, t: real)
    ensures InOutCurve(f, t) + InOutCurve(f, 1.0 - t) == 1.0
    ensures OutInCurve(f, t) + OutInCurve(f, 1.0 - t) == 1.0
    ensures InOutCurve(f, 0.5) == 0.5 == OutInCurve(f, 0.5)
  {
    Symmetric(f, t);
    Symmetric(f, 0.5);
  }

  /** The symmetry at one point, from the composition law, the reflection
      law and the endpoint values. */
  lemma Symmetric(f: Family, t: real)
    ensures InOutCurve(f, t) + InOutCurve(f, 1.0 - t) == 1.0
    ensures OutInCurve(f, t) + OutInCurve(f, 1.0 - t) == 1.0
  {
    HalvesCompose(f, t);
    HalvesCompose(f, 1.0 - t);
    CurvesMeetClamp(f, In);
    CurvesMeetClamp(f, Out);
    InReflectsOut(f, t * 2.0);
    InReflectsOut(f, (1.0 - t) * 2.0);
    InReflectsOut(f, 1.0 - t * 2.0);
    InReflectsOut(f, 1.0 - (1.0 - t) * 2.0);
    assert (1.0 - t) * 2.0 - 1.0 == 1.0 - t * 2.0;
  }

  /** The Back curves leave the unit interval inside the open domain: the
      clamp of `Ease` applies only outside (0, 1), never to the curve. */
  lemma BackOvershoots()
    ensures Ease(Poly(Back, In), 0.5) < 0.0
    ensures Ease(Poly(Back, Out), 0.5) > 1.0
  {
  }
}

=== FILE: groups.dfy ===
/** `TweenerGroup`: one phase of a tween. Its tweeners run together, for
    one duration, until an optional stop predicate holds; a flag asks for
    the animated object to be destroyed when the phase is over.

    Durations are in ticks and may be negative, as a `TimeSpan` may; the
    sequencing loop treats a duration of zero or less as "no time". */
module Groups {
  import opened Results
  import opened Values
  import opened Easings
  import opened Ranges
  import opened Tweeners

  datatype Group<!W> = Group(
    duration: int,
    tweeners: seq<Tweener<W>>,      // in the order `Add` received them
    stopWhen: Option<W -> bool>,    // `null` until `StopWhen` is called
    thenDestroy: bool)

  /** A fresh group: zero duration, no tweeners, no predicate, no destroy. */
  function NewGroup<W>(): Group<W> {
    Group(0, [], None, false)
  }

  /** `ShouldStop`: false while no predicate is set, otherwise the predicate
      asked in the current world. */
  predicate ShouldStop<W>(g: Group<W>, w: W) {
    g.stopWhen.Some? && g.stopWhen.value(w)
  }

  predicate AllValid<W>(ts: seq<Tweener<W>>) {
    forall i :: 0 <= i < |ts| ==> Valid(ts[i].range)
  }

  /** Every range of the group satisfies its invariant. */
  predicate Ready<W>(g: Group<W>) {
    AllValid(g.tweeners)
  }

  predicate AllCaptured<W>(ts: seq<Tweener<W>>) {
    forall i :: 0 <= i < |ts| ==> ts[i].range.Captured()
  }

  /** `u` is `t` at some later time: same channel, easing, provider and
      target, and no change at all once `t` had captured its start. */
  ghost predicate Persists<W>(t: Tweener<W>, u: Tweener<W>) {
    && u.access == t.access
    && u.easing == t.easing
    && u.range.provider == t.range.provider
    && u.range.target == t.range.target
    && (t.range.Captured() ==> u == t)
  }

  /** `u` is `t` after one step: it persists, and its range is valid and
      captured. */
  ghost predicate Stepped<W>(t: Tweener<W>, u: Tweener<W>) {
    && Persists(t, u)
    && Valid(u.range)
    && u.range.Captured()
  }

  /** `h` is phase `g` at some later time: the same settings, and every
      tweener persists. */
  ghost predicate Kept<W>(g: Group<W>, h: Group<W>) {
    && h.duration == g.duration
    && h.stopWhen == g.stopWhen
    && h.thenDestroy == g.thenDestroy
    && |h.tweeners| == |g.tweeners|
    && forall j :: 0 <= j < |g.tweeners| ==> Persists(g.tweeners[j], h.tweeners[j])
  }

  /** The value a stepped tweener writes at `fraction`: the eased blend of
      its captured ends. */
  function Blended<W>(u: Tweener<W>, fraction: real): Value
    requires Valid(u.range) && u.range.Captured()
  {
    Lerp(u.range.cache.value.from, EndValue(u.range), Ease(u.easing, fraction))
  }

  /** Where a run of the tweeners of one phase got to: the world, the
      tweeners stepped so far and the values they wrote, and the exception
      that stopped the run early, if one did. */
  datatype Pass<!W> = Pass(world: W, tweeners: seq<Tweener<W>>, written: seq<Value>, fault: Option<Error>)

  /** The world after handing `ws[i]` to the setter of `ts[i]`, for every
      written `i` in order, each setter working on the world the previous
      one left. */
  function Writes<W>(ts: seq<Tweener<W>>, ws: seq<Value>, w: W): W
    requires |ws| <= |ts|
    decreases |ws|
  {
    if ws == [] then w else Writes(ts[1..], ws[1..], ts[0].access.write(w, ws[0]))
  }

  /** Taking the first write off every prefix of a run of writes. */
  lemma WritesAfterFirst<W>(ts: seq<Tweener<W>>, ws: seq<Value>, w: W)
    requires 0 < |ws| <= |ts|
    ensures forall i :: 0 < i <= |ws| ==>
              Writes(ts, ws[..i], w) == Writes(ts[1..], ws[1..][..i - 1], ts[0].access.write(w, ws[0]))
  {
    forall i | 0 < i <= |ws|
      ensures Writes(ts, ws[..i], w) == Writes(ts[1..], ws[1..][..i - 1], ts[0].access.write(w, ws[0]))
    {
      assert ws[..i][1..] == ws[1..][..i - 1];
    }
  }

  /** The world clauses of `StepAll` carry over from the rest of the
      tweeners to the whole list. */
  lemma WritesCons<W>(ts: seq<Tweener<W>>, w: W, first: Tweened<W>, rest: Pass<W>)
    requires 0 < |ts| && |rest.tweeners| == |rest.written| <= |ts| - 1
    requires first.world == ts[0].access.write(w, first.written)
    requires !ts[0].range.Captured() ==>
               first.tweener.range.Captured() && first.tweener.range.cache.value.from == ts[0].range.provider(w)
    requires rest.world == Writes(ts[1..], rest.written, first.world)
    requires forall i :: 0 <= i < |rest.written| && !ts[1..][i].range.Captured() ==>
               rest.tweeners[i].range.Captured() &&
               rest.tweeners[i].range.cache.value.from == ts[1..][i].range.provider(Writes(ts[1..], rest.written[..i], first.world))
    ensures rest.world == Writes(ts, [first.written] + rest.written, w)
    ensures forall i :: 0 <= i < |rest.written| + 1 && !ts[i].range.Captured() ==>
              ([first.tweener] + rest.tweeners)[i].range.Captured() &&
              ([first.tweener] + rest.tweeners)[i].range.cache.value.from ==
                ts[i].range.provider(Writes(ts, ([first.written] + rest.written)[..i], w))
  {
    var us, ws := [first.tweener] + rest.tweeners, [first.written] + rest.written;
    assert ws[1..] == rest.written;
    WritesAfterFirst(ts, ws, w);
    assert ws[..0] == [];
    forall i | 0 < i < |ws|
      ensures us[i] == rest.tweeners[i - 1] && ts[i] == ts[1..][i - 1]
    {
    }
  }

  /** The loop of `TweenerGroup.Tween`: step every tweener in insertion
      order, each in the world the previous one left. The first exception
      stops the loop; the setters that ran before it have already written. */
  function StepAll<W>(ts: seq<Tweener<W>>, fraction: real, w: W): (p: Pass<W>)
    requires AllValid(ts)
    ensures |p.tweeners| == |p.written| <= |ts|
    ensures p.fault.None? <==> |p.written| == |ts|
    ensures forall i :: 0 <= i < |p.written| ==>
              Stepped(ts[i], p.tweeners[i]) && p.written[i] == Blended(p.tweeners[i], fraction)
    ensures 1.0 <= fraction ==> forall i :: 0 <= i < |p.written| ==>
              p.tweeners[i].range.Captured() && p.written[i] == EndValue(p.tweeners[i].range)
    // every setter that ran did so in order, on the world the previous one left
    ensures p.world == Writes(ts, p.written, w)
    // a tweener not yet started captures its start in the world the
    // tweeners before it left
    ensures forall i :: 0 <= i < |p.written| && !ts[i].range.Captured() ==>
              p.tweeners[i].range.Captured() &&
              p.tweeners[i].range.cache.value.from == ts[i].range.provider(Writes(ts, p.written[..i], w))
    // the loop stopped at the first tweener whose step throws, in the world
    // the tweeners before it left
    ensures p.fault.Some? ==>
              && TweenValue(ts[|p.written|], fraction, p.world) == Thrown(p.fault.value)
              && p.fault.value == NotSupported
              && !ts[|p.written|].range.Captured() && ts[|p.written|].range.target.Offset?
    ensures AllCaptured(ts) ==> p.fault.None? && p.tweeners == ts
    decreases |ts|, 1
  {
    if ts == [] then Pass(w, [], [], None)
    else
      var head := TweenValue(ts[0], fraction, w);
      if head.Thrown? then Pass(w, [], [], Some(head.error))
      else
        assert AllValid(ts[1..]);
        var rest := StepAll(ts[1..], fraction, head.value.world);
        PassCons(ts, fraction, w, head.value, rest);
        PassConsWorld(ts, fraction, w, head.value, rest);
        PassConsEnds(ts, fraction, w, head.value, rest);
        PassConsFault(ts, fraction, w, head.value, rest);
        Pass(rest.world, [head.value.tweener] + rest.tweeners, [head.value.written] + rest.written, rest.fault)
  }

  /** The clauses of `StepAll` for a non-empty list whose first tweener
      steps, from those of the first tweener and of the rest. */
  lemma PassCons<W>(ts: seq<Tweener<W>>, fraction: real, w: W, head: Tweened<W>, rest: Pass<W>)
    requires 0 < |ts| && AllValid(ts) && AllValid(ts[1..])
    requires TweenValue(ts[0], fraction, w) == Ok(head)
    requires StepAll(ts[1..], fraction, head.world) == rest
    ensures
      var us, ws := [head.tweener] + rest.tweeners, [head.written] + rest.written;
      && |us| == |ws| <= |ts|
      && (rest.fault.None? <==> |ws| == |ts|)
      && (forall i :: 0 <= i < |ws| ==> Stepped(ts[i], us[i]) && ws[i] == Blended(us[i], fraction))
    decreases |ts|, 0
  {
  }

  /** The snap clause of `StepAll` for the same case. */
  lemma PassConsEnds<W>(ts: seq<Tweener<W>>, fraction: real, w: W, head: Tweened<W>, rest: Pass<W>)
    requires 0 < |ts| && AllValid(ts) && AllValid(ts[1..])
    requires TweenValue(ts[0], fraction, w) == Ok(head)
    requires StepAll(ts[1..], fraction, head.world) == rest
    ensures
      var us, ws := [head.tweener] + rest.tweeners, [head.written] + rest.written;
      1.0 <= fraction ==> forall i :: 0 <= i < |ws| ==> us[i].range.Captured() && ws[i] == EndValue(us[i].range)
    decreases |ts|, 0
  {
    var us, ws := [head.tweener] + rest.tweeners, [head.written] + rest.written;
    if 1.0 <= fraction {
      forall i | 0 <= i < |ws|
        ensures us[i].range.Captured() && ws[i] == EndValue(us[i].range)
      {
        if i > 0 {
          assert us[i] == rest.tweeners[i - 1] && ws[i] == rest.written[i - 1];
        }
      }
    }
  }

  /** The fault clause of `StepAll` for the same case: the rest stopped
      at its tweener `|rest.written|`, which is tweener `|rest.written| + 1`
      of the whole list. */
  lemma PassConsFault<W>(ts: seq<Tweener<W>>, fraction: real, w: W, head: Tweened<W>, rest: Pass<W>)
    requires 0 < |ts| && AllValid(ts) && AllValid(ts[1..])
    requires TweenValue(ts[0], fraction, w) == Ok(head)
    requires StepAll(ts[1..], fraction, head.world) == rest
    ensures rest.fault.Some? ==>
              && |rest.written| + 1 < |ts|
              && TweenValue(ts[|rest.written| + 1], fraction, rest.world) == Thrown(rest.fault.value)
              && rest.fault.value == NotSupported
              && !ts[|rest.written| + 1].range.Captured() && ts[|rest.written| + 1].range.target.Offset?
    decreases |ts|, 0
  {
    assert rest.fault.Some? ==> ts[1..][|rest.written|] == ts[|rest.written| + 1];
  }

  /** The world clauses of `StepAll` for the same case. */
  lemma PassConsWorld<W>(ts: seq<Tweener<W>>, fraction: real, w: W, head: Tweened<W>, rest: Pass<W>)
    requires 0 < |ts| && AllValid(ts) && AllValid(ts[1..])
    requires TweenValue(ts[0], fraction, w) == Ok(head)
    requires StepAll(ts[1..], fraction, head.world) == rest
    ensures
      var us, ws := [head.tweener] + rest.tweeners, [head.written] + rest.written;
      && |ws| <= |ts|
      && rest.world == Writes(ts, ws, w)
      && forall i :: 0 <= i < |ws| && !ts[i].range.Captured() ==>
           us[i].range.Captured() && us[i].range.cache.value.from == ts[i].range.provider(Writes(ts, ws[..i], w))
    decreases |ts|, 0
  {
    WritesCons(ts, w, head, rest);
  }

  datatype Advanced<!W> = Advanced(world: W, group: Group<W>, written: seq<Value>)

  /** `TweenerGroup.Tween(fraction)`. Only the tweeners' range state
      changes; the group's settings stay as they were. When a tweener
      throws, the world the setters before it left is `StepAll`'s. */
  function Advance<W>(g: Group<W>, fraction: real, w: W): (o: Outcome<Advanced<W>>)
    requires Ready(g)
    ensures o.Ok? ==>
              && Ready(o.value.group)
              && o.value.group.duration == g.duration
              && o.value.group.stopWhen == g.stopWhen
              && o.value.group.thenDestroy == g.thenDestroy
              && |o.value.group.tweeners| == |g.tweeners| == |o.value.written|
    ensures o.Ok? ==> forall i :: 0 <= i < |g.tweeners| ==>
              Stepped(g.tweeners[i], o.value.group.tweeners[i]) &&
              o.value.written[i] == Blended(o.value.group.tweeners[i], fraction)
    // a snap (`Tween(1)`) writes every channel's `To`
    ensures o.Ok? && 1.0 <= fraction ==> forall i :: 0 <= i < |g.tweeners| ==>
              o.value.group.tweeners[i].range.Captured() &&
              o.value.written[i] == EndValue(o.value.group.tweeners[i].range)
    // the setters run in order, each on the world the previous one left,
    // and a tweener not yet started captures its start in that world
    ensures o.Ok? ==> o.value.world == Writes(g.tweeners, o.value.written, w)
    ensures o.Ok? ==> forall i :: 0 <= i < |g.tweeners| && !g.tweeners[i].range.Captured() ==>
              o.value.group.tweeners[i].range.Captured() &&
              o.value.group.tweeners[i].range.cache.value.from ==
                g.tweeners[i].range.provider(Writes(g.tweeners, o.value.written[..i], w))
    ensures AllCaptured(g.tweeners) ==> o.Ok? && o.value.group == g
    // an exception is the one that stopped the loop
    ensures o.Thrown? <==> StepAll(g.tweeners, fraction, w).fault.Some?
    ensures o.Thrown? ==> Some(o.error) == StepAll(g.tweeners, fraction, w).fault
    ensures o.Thrown? ==>
              o.error == NotSupported &&
              exists i :: 0 <= i < |g.tweeners| && !g.tweeners[i].range.Captured() && g.tweeners[i].range.target.Offset?
  {
    var p := StepAll(g.tweeners, fraction, w);
    if p.fault.Some? then Thrown(p.fault.value)
    else Ok(Advanced(p.world, g.(tweeners := p.tweeners), p.written))
  }

  /** The setter of `t` never changes what channel `c` reads. */
  ghost predicate Independent<W(!new)>(c: Accessor<W>, t: Tweener<W>) {
    forall w: W, v: Value :: c.read(t.access.write(w, v)) == c.read(w)
  }

  /** Setters that leave channel `c` alone leave its reading alone. */
  lemma {:induction false} WritesKeepRead<W(!new)>(c: Accessor<W>, ts: seq<Tweener<W>>, ws: seq<Value>, w: W)
    requires |ws| <= |ts|
    requires forall i :: 0 <= i < |ws| ==> Independent(c, ts[i])
    ensures c.read(Writes(ts, ws, w)) == c.read(w)
    decreases |ws|
  {
    if ws != [] {
      assert Independent(c, ts[0]);
      WritesKeepRead(c, ts[1..], ws[1..], ts[0].access.write(w, ws[0]));
    }
  }

  /** A run of writes is the writes before `k`, the write of `k`, and the
      writes after it. */
  lemma {:induction false} WritesSplit<W>(ts: seq<Tweener<W>>, ws: seq<Value>, w: W, k: nat)
    requires k < |ws| <= |ts|
    ensures Writes(ts, ws, w) ==
              Writes(ts[k + 1..], ws[k + 1..], ts[k].access.write(Writes(ts, ws[..k], w), ws[k]))
    decreases k
  {
    if k == 0 {
      assert ws[..0] == [];
    } else {
      var w1 := ts[0].access.write(w, ws[0]);
      WritesSplit(ts[1..], ws[1..], w1, k - 1);
      WritesAfterFirst(ts, ws, w);
      assert ts[1..][k..] == ts[k + 1..] && ws[1..][k..] == ws[k + 1..];
    }
  }

  /** The hand-off between phases. Say a phase is snapped with `Tween(1)`,
      and tweener `j` of the next phase starts lazily from the channel of
      tweener `k` of that phase. Say that channel reads back what it is
      given, and no other setter that runs in between (the later tweeners
      of the phase, the earlier ones of the next phase) touches it. Then
      the captured start is exactly the previous phase's `To`, at
      whatever fraction the next phase first runs. */
  lemma NextPhaseStartsAtPreviousTo<W(!new)>(g1: Group<W>, g2: Group<W>, w: W, fraction: real, k: nat, j: nat)
    requires Ready(g1) && Ready(g2)
    requires k < |g1.tweeners| && j < |g2.tweeners|
    requires g2.tweeners[j].range.provider == g1.tweeners[k].access.read
    requires !g2.tweeners[j].range.Captured()
    requires forall w': W, v: Value :: ReadsBack(g1.tweeners[k].access, w', v)
    requires forall i :: k < i < |g1.tweeners| ==> Independent(g1.tweeners[k].access, g1.tweeners[i])
    requires forall i :: 0 <= i < j ==> Independent(g1.tweeners[k].access, g2.tweeners[i])
    requires Advance(g1, 1.0, w).Ok?
    requires Advance(g2, fraction, Advance(g1, 1.0, w).value.world).Ok?
    ensures Advance(g2, fraction, Advance(g1, 1.0, w).value.world).value.group.tweeners[j].range.cache.value.from ==
              EndValue(Advance(g1, 1.0, w).value.group.tweeners[k].range)
  {
    var c := g1.tweeners[k].access;
    var first := Advance(g1, 1.0, w).value;
    var ts1, ws1 := g1.tweeners, first.written;
    var before := Writes(ts1, ws1[..k], w);
    WritesSplit(ts1, ws1, w, k);
    var later := ts1[k + 1..];
    forall i | 0 <= i < |later|
      ensures Independent(c, later[i])
    {
      assert later[i] == ts1[k + 1 + i];
    }
    WritesKeepRead(c, later, ws1[k + 1..], c.write(before, ws1[k]));
    assert ReadsBack(c, before, ws1[k]);
    assert c.read(first.world) == ws1[k] == EndValue(first.group.tweeners[k].range);

    var second := Advance(g2, fraction, first.world).value;
    WritesKeepRead(c, g2.tweeners, second.written[..j], first.world);
  }
}

=== FILE: int32_overflow.dfy ===
/** `Int32Tweener.LerpUnclamped` computes `to - from` in 32-bit arithmetic
    before scaling it. When the two ends are more than `int.MaxValue`
    apart the difference wraps and the blend moves away from `to`. This
    module models the expression as written, shows an input where it
    leaves the range it should stay in, and proves that the exact
    difference, as `Values.Int32Lerp` uses it, never does. */
module Int32Overflow {
  import opened Values

  const Min32: int := -0x8000_0000
  const Max32: int := 0x7fff_ffff

  predicate IsInt32(n: int) {
    Min32 <= n <= Max32
  }

  /** Unchecked C# `int` arithmetic: reduce modulo 2^32 into the signed range. */
  function Wrap32(n: int): (m: int)
    ensures IsInt32(m)
    ensures (m - n) % 0x1_0000_0000 == 0
    ensures IsInt32(n) ==> m == n
  {
    (n - Min32) % 0x1_0000_0000 + Min32
  }

  /** The `int` blend as the code computes it: the difference of the ends
      is taken in 32-bit arithmetic, scaled by `t` and truncated, then added
      to `from`; both integer operations wrap. */
  function Int32LerpAsWritten(from: int, to: int, t: real): int {
    Wrap32(from + Trunc(Wrap32(to - from) as real * t))
  }

  /** Halfway from -2 to `int.MaxValue`, the expression as written lands
      near `int.MinValue / 2`, below both ends. */
  lemma AsWrittenLeavesTheRange()
    ensures IsInt32(-2) && IsInt32(Max32)
    ensures Int32LerpAsWritten(-2, Max32, 0.5) == -1073741825
    ensures Int32LerpAsWritten(-2, Max32, 0.5) < -2
  {
    assert Wrap32(Max32 - -2) == -2147483647;
    assert Trunc(-2147483647.0 * 0.5) == -1073741823;
  }

  /** Whenever the difference fits in an `int`, the expression as written
      and the corrected blend agree: the wrap is the only defect. */
  lemma AsWrittenAgreesWithoutOverflow(from: int, to: int, t: real)
    requires IsInt32(from) && IsInt32(to) && IsInt32(to - from)
    requires 0.0 <= t <= 1.0
    ensures Int32LerpAsWritten(from, to, t) == Int32Lerp(from, to, t)
  {
    var d := Wrap32(to - from);
    assert d == to - from;
    var n := from + Trunc(d as real * t);
    assert n == Int32Lerp(from, to, t);
    CorrectedStaysInRange(from, to, t);
    assert Wrap32(n) == n;
  }

  /** The corrected blend, for any two `int` ends and any fraction in
      [0, 1], stays between the ends and so inside the `int` range. */
  lemma CorrectedStaysInRange(from: int, to: int, t: real)
    requires IsInt32(from) && IsInt32(to)
    requires 0.0 <= t <= 1.0
    ensures IsInt32(Int32Lerp(from, to, t))
    ensures from <= to ==> from <= Int32Lerp(from, to, t) <= to
    ensures to <= from ==> to <= Int32Lerp(from, to, t) <= from
  {
    if from <= to {
      assert from <= Int32Lerp(from, to, t) <= to;
    } else {
      assert to <= Int32Lerp(from, to, t) <= from;
    }
  }
}

=== FILE: probing.dfy ===
/** The component lookups of `Tween`: `Color` and `Alpha` walk the game
    object's components in order and build a tweener on the first one that
    can carry the channel; `Component<TComponent, TTweener>` takes the first
    component of one type. No match is an `InvalidOperationException`. */
module Probing {
  import opened Results

  /** The component types the lookups distinguish. */
  datatype Kind = Graphic | SpriteRenderer | CanvasGroup | Other

  /** The kinds that carry a colour, and the kinds that carry an alpha. */
  const ColorKinds: set<Kind> := {Graphic, SpriteRenderer}
  const AlphaKinds: set<Kind> := {Graphic, SpriteRenderer, CanvasGroup}

  /** The component a lookup settled on: its position and its type, which
      decides the tweener built on it. */
  datatype Pick = Pick(index: nat, kind: Kind)

  /** The reference answer: the position of the first component whose kind
      is accepted, if any. */
  function FirstMatch(cs: seq<Kind>, accepted: set<Kind>): (r: Option<nat>)
    ensures r.Some? ==> r.value < |cs| && cs[r.value] in accepted
    ensures r.Some? ==> forall j :: 0 <= j < r.value ==> cs[j] !in accepted
    ensures r.None? <==> forall j :: 0 <= j < |cs| ==> cs[j] !in accepted
    decreases |cs|
  {
    if cs == [] then None
    else if cs[0] in accepted then Some(0)
    else
      var rest := FirstMatch(cs[1..], accepted);
      if rest.None? then None else Some(rest.value + 1)
  }

  /** The `foreach` over the components shared by `Color` and `Alpha`. */
  method Probe(cs: seq<Kind>, accepted: set<Kind>) returns (o: Outcome<Pick>)
    ensures o.Ok? <==> FirstMatch(cs, accepted).Some?
    ensures o.Ok? ==> o.value.index == FirstMatch(cs, accepted).value && o.value.kind == cs[o.value.index]
    ensures o.Ok? ==> o.value.kind in accepted
    ensures o.Thrown? ==> o.error == MissingComponent
  {
    var i := 0;
    while i < |cs|
      invariant 0 <= i <= |cs|
      invariant forall j :: 0 <= j < i ==> cs[j] !in accepted
    {
      if cs[i] in accepted {
        FirstIsFirst(cs, accepted, i);
        return Ok(Pick(i, cs[i]));
      }
      i := i + 1;
    }
    return Thrown(MissingComponent);
  }

  /** A position before which nothing is accepted and at which something
      is, is the reference answer. */
  lemma FirstIsFirst(cs: seq<Kind>, accepted: set<Kind>, i: nat)
    requires i < |cs| && cs[i] in accepted
    requires forall j :: 0 <= j < i ==> cs[j] !in accepted
    ensures FirstMatch(cs, accepted) == Some(i)
  {
  }

  /** `Tween.Color`: the first `Graphic` or `SpriteRenderer`. */
  method ColorSource(cs: seq<Kind>) returns (o: Outcome<Pick>)
    ensures o.Ok? <==> exists i :: 0 <= i < |cs| && (cs[i] == Graphic || cs[i] == SpriteRenderer)
    ensures o.Ok? ==> o.value.index < |cs| && o.value.kind == cs[o.value.index]
    ensures o.Ok? ==> o.value.kind == Graphic || o.value.kind == SpriteRenderer
    ensures o.Ok? ==> forall j :: 0 <= j < o.value.index ==> cs[j] != Graphic && cs[j] != SpriteRenderer
    ensures o.Thrown? ==> o.error == MissingComponent
  {
    o := Probe(cs, ColorKinds);
    if o.Thrown? {
      assert forall i :: 0 <= i < |cs| ==> cs[i] !in ColorKinds;
    }
  }

  /** `Tween.Alpha`: the first `Graphic`, `SpriteRenderer` or `CanvasGroup`
      (the first two animate the colour's alpha component, the last its
      own `alpha`). */
  method AlphaSource(cs: seq<Kind>) returns (o: Outcome<Pick>)
    ensures o.Ok? <==> exists i :: 0 <= i < |cs| && cs[i] != Other
    ensures o.Ok? ==> o.value.index < |cs| && o.value.kind == cs[o.value.index] && o.value.kind != Other
    ensures o.Ok? ==> forall j :: 0 <= j < o.value.index ==> cs[j] == Other
    ensures o.Thrown? ==> o.error == MissingComponent
  {
    o := Probe(cs, AlphaKinds);
    if o.Thrown? {
      assert forall i :: 0 <= i < |cs| ==> cs[i] !in AlphaKinds;
    }
  }

  /** `Component<TComponent, TTweener>`: the first component of kind `k`
      (`GetComponent`), or an exception when there is none. */
  method ComponentOf(cs: seq<Kind>, k: Kind) returns (o: Outcome<Pick>)
    ensures o.Ok? <==> k in cs
    ensures o.Ok? ==> o.value.index < |cs| && cs[o.value.index] == k == o.value.kind
    ensures o.Ok? ==> k !in cs[..o.value.index]
    ensures o.Thrown? ==> o.error == MissingComponent
  {
    o := Probe(cs, {k});
    if o.Ok? {
      assert forall j :: 0 <= j < o.value.index ==> cs[j] != k;
    } else {
      assert forall i :: 0 <= i < |cs| ==> cs[i] != k;
    }
  }

  /** `Alpha` and `Color` agree on the component unless a `CanvasGroup`
      comes first; `Alpha` fails only where `Color` fails too. */
  lemma {:induction false} AlphaFollowsColor(cs: seq<Kind>)
    ensures FirstMatch(cs, ColorKinds).Some? ==> FirstMatch(cs, AlphaKinds).Some?
    ensures FirstMatch(cs, AlphaKinds).Some? && cs[FirstMatch(cs, AlphaKinds).value] != CanvasGroup ==>
              FirstMatch(cs, AlphaKinds) == FirstMatch(cs, ColorKinds)
    ensures FirstMatch(cs, AlphaKinds).Some? && cs[FirstMatch(cs, AlphaKinds).value] == CanvasGroup ==>
              FirstMatch(cs, ColorKinds).None? || FirstMatch(cs, AlphaKinds).value < FirstMatch(cs, ColorKinds).value
    decreases |cs|
  {
    if cs != [] && cs[0] !in AlphaKinds {
      AlphaFollowsColor(cs[1..]);
    }
  }
}

=== FILE: ranges.dfy ===
/** `ValueRange<T>` and its two subclasses: the interval one tweener blends
    across, with a start value that is read lazily and then cached.

    The start value comes from a provider: the tweener's own getter, or a
    constant when the caller gave an explicit start. The provider runs on
    the first read of `From`, or on the first read of `To` of an offset
    range, never when the range is built; from then on both ends are
    cached. The counter `providerCalls` records how often the provider ran,
    so that "at most once" is a statement about the model's state. */
module Ranges {
  import opened Results
  import opened Values

  /** How `To` is found: a fixed target (`FromToValueRange`) or the start
      plus an offset (`AddValueRange`). */
  datatype Target = Fixed(to: Value) | Offset(offset: Value)

  datatype Endpoints = Endpoints(from: Value, to: Value)

  datatype Range<!W> = Range(
    provider: W -> Value,
    target: Target,
    cache: Option<Endpoints>,   // `Initialized` together with the cached fields
    providerCalls: nat)
  {
    predicate Captured() {
      cache.Some?
    }
  }

  /** A range as the builder creates it: nothing read yet. */
  function Lazy<W>(provider: W -> Value, target: Target): Range<W> {
    Range(provider, target, None, 0)
  }

  /** The range's invariant: the provider has run exactly when the range is
      captured, so at most once; a fixed target is cached as given; an
      offset target is cached as the start plus the offset. */
  predicate Valid<W>(r: Range<W>) {
    && r.providerCalls == (if r.Captured() then 1 else 0)
    && (r.Captured() ==>
          match r.target
          case Fixed(to) => r.cache.value.to == to
          case Offset(d) => Add(r.cache.value.from, d) == Ok(r.cache.value.to))
  }

  /** What `To` returns once it is defined. */
  function EndValue<W>(r: Range<W>): Value
    requires r.target.Fixed? || r.Captured()
  {
    if r.target.Fixed? then r.target.to else r.cache.value.to
  }

  /** `InitializeRange`: call the provider once and cache both ends. For an
      offset range the end is `Add(from, offset)`, which throws for
      quaternions; the exception escapes to the reader. */
  function Capture<W>(r: Range<W>, w: W): (o: Outcome<Range<W>>)
    requires Valid(r) && !r.Captured()
    ensures o.Ok? ==> Valid(o.value) && o.value.Captured()
    ensures o.Ok? ==> o.value.cache.value.from == r.provider(w)
    ensures o.Ok? ==> o.value.provider == r.provider && o.value.target == r.target
    ensures o.Thrown? <==> r.target.Offset? && Add(r.provider(w), r.target.offset).Thrown?
  {
    var from := r.provider(w);
    match r.target
    case Fixed(to) =>
      Ok(r.(cache := Some(Endpoints(from, to)), providerCalls := r.providerCalls + 1))
    case Offset(d) =>
      var to :- Add(from, d);
      Ok(r.(cache := Some(Endpoints(from, to)), providerCalls := r.providerCalls + 1))
  }

  /** The value read and the range's state after the read. */
  datatype Read<!W> = Read(value: Value, range: Range<W>)

  /** The `From` getter. The first read returns the provider's value in the
      current world and caches it; every later read returns the cache and
      leaves the range as it is, whatever the world is by then. */
  function ReadFrom<W>(r: Range<W>, w: W): (o: Outcome<Read<W>>)
    requires Valid(r)
    ensures o.Ok? ==> Valid(o.value.range) && o.value.range.Captured()
    ensures o.Ok? ==> o.value.value == o.value.range.cache.value.from
    ensures o.Ok? ==> o.value.range.provider == r.provider && o.value.range.target == r.target
    ensures r.Captured() ==> o == Ok(Read(r.cache.value.from, r))
    ensures !r.Captured() && o.Ok? ==> o.value.value == r.provider(w)
    ensures o.Thrown? <==>
              !r.Captured() && r.target.Offset? && Add(r.provider(w), r.target.offset).Thrown?
  {
    if r.Captured() then Ok(Read(r.cache.value.from, r))
    else
      var captured :- Capture(r, w);
      Ok(Read(captured.cache.value.from, captured))
  }

  /** The `To` getter. A fixed target is returned without touching the
      provider or the cache. An offset target first forces the capture of
      `From`, then returns `From + offset`, the same value on every read. */
  function ReadTo<W>(r: Range<W>, w: W): (o: Outcome<Read<W>>)
    requires Valid(r)
    ensures o.Ok? ==> o.value.range.provider == r.provider && o.value.range.target == r.target
    ensures r.target.Fixed? ==> o == Ok(Read(r.target.to, r))
    ensures o.Ok? ==>
              && Valid(o.value.range)
              && (o.value.range.Captured() || r.target.Fixed?)
              && o.value.value == EndValue(o.value.range)
    ensures r.target.Offset? && o.Ok? ==>
              o.value.range.Captured() &&
              Add(o.value.range.cache.value.from, r.target.offset) == Ok(o.value.value)
    ensures r.target.Offset? && !r.Captured() && o.Ok? ==>
              o.value.range.cache.value.from == r.provider(w)
    ensures r.Captured() ==> o == Ok(Read(EndValue(r), r))
    ensures o.Thrown? <==>
              !r.Captured() && r.target.Offset? && Add(r.provider(w), r.target.offset).Thrown?
  {
    match r.target
    case Fixed(to) => Ok(Read(to, r))
    case Offset(_) =>
      if r.Captured() then Ok(Read(r.cache.value.to, r))
      else
        var captured :- Capture(r, w);
        Ok(Read(captured.cache.value.to, captured))
  }

  /** Which getter a read uses. */
  datatype Access = FromRead | ToRead

  datatype Series<!W> = Series(values: seq<Value>, range: Range<W>)

  /** A run of reads, each in the world current at the time of the read.
      Every read returns the matching end of the range as it stands after
      the whole run, so all reads of one end agree. */
  function ReadAll<W>(r: Range<W>, accesses: seq<(Access, W)>): (o: Outcome<Series<W>>)
    requires Valid(r)
    ensures o.Ok? ==> Valid(o.value.range) && |o.value.values| == |accesses|
    ensures o.Ok? ==> o.value.range.provider == r.provider && o.value.range.target == r.target
    ensures o.Ok? ==> forall i :: 0 <= i < |accesses| ==>
              if accesses[i].0 == FromRead then
                o.value.range.Captured() && o.value.values[i] == o.value.range.cache.value.from
              else
                (o.value.range.Captured() || r.target.Fixed?) && o.value.values[i] == EndValue(o.value.range)
    ensures r.Captured() ==> o.Ok? && o.value.range == r
    ensures o.Thrown? ==> !r.Captured() && r.target.Offset?
    decreases |accesses|
  {
    if accesses == [] then Ok(Series([], r))
    else
      var head := if accesses[0].0 == FromRead then ReadFrom(r, accesses[0].1) else ReadTo(r, accesses[0].1);
      if head.Thrown? then Thrown(head.error)
      else
        // after one read the range is captured or its target is fixed, so
        // no later read can throw
        var tail := ReadAll(head.value.range, accesses[1..]);
        assert tail.Ok?;
        Ok(Series([head.value.value] + tail.value.values, tail.value.range))
  }

  /** Once captured, a range answers every later read of either end from
      its cache, in whatever worlds the accesses happen, and never runs its
      provider again. */
  lemma {:induction false} CachedReadsAreStable<W>(r: Range<W>, accesses: seq<(Access, W)>)
    requires Valid(r) && r.Captured()
    ensures ReadAll(r, accesses).Ok?
    ensures ReadAll(r, accesses).value.range == r
    ensures forall i :: 0 <= i < |accesses| ==>
              ReadAll(r, accesses).value.values[i] ==
                if accesses[i].0 == FromRead then r.cache.value.from else EndValue(r)
    decreases |accesses|
  {
    if accesses != [] {
      CachedReadsAreStable(r, accesses[1..]);
      var rest := ReadAll(r, accesses[1..]).value;
      var first := if accesses[0].0 == FromRead then r.cache.value.from else EndValue(r);
      assert ReadAll(r, accesses) == Ok(Series([first] + rest.values, r));
      forall i | 0 <= i < |accesses|
        ensures ReadAll(r, accesses).value.values[i] ==
                  if accesses[i].0 == FromRead then r.cache.value.from else EndValue(r)
      {
        if i > 0 {
          assert ReadAll(r, accesses).value.values[i] == rest.values[i - 1];
          assert accesses[1..][i - 1] == accesses[i];
        }
      }
    }
  }

  /** The provider runs at most once over any run of accesses: the first read
      that needs the start value captures it in that read's world, and
      every read after it sees the captured ends. */
  lemma ProviderRunsAtMostOnce<W>(r: Range<W>, accesses: seq<(Access, W)>)
    requires Valid(r)
    ensures ReadAll(r, accesses).Ok? ==>
              ReadAll(r, accesses).value.range.providerCalls <= 1 &&
              ReadAll(r, accesses).value.range.providerCalls >= r.providerCalls
  {
    var o := ReadAll(r, accesses);
    if o.Ok? && r.Captured() {
      CachedReadsAreStable(r, accesses);
    }
  }
}

=== FILE: results.dfy ===
/** Failure-compatible wrappers shared by the whole engine.

    The engine signals failure only by exceptions: `NotSupportedException`
    from the quaternion `Add`, and `InvalidOperationException` when a
    component lookup finds nothing. Both become `Thrown` here; the engine
    never catches them, so a `Thrown` ends whatever produced it. */
module Results {

  /** The exceptions the engine can raise. */
  datatype Error =
    | NotSupported      // no `Add` (combine) for the value type
    | MissingComponent  // no component of a requested kind on the target

  datatype Option<+T> = None | Some(value: T)

  /** Either a value or the exception that aborted the computation. */
  datatype Outcome<+T> = Ok(value: T) | Thrown(error: Error) {

    predicate IsFailure() {
      Thrown?
    }

    function PropagateFailure<U>(): Outcome<U>
      requires Thrown?
    {
      Thrown(error)
    }

    function Extract(): T
      requires Ok?
    {
      value
    }
  }
}

=== FILE: runs.dfy ===
/** What a whole run of the coroutine guarantees, from `StartCoroutine`
    over any sequence of frames, whatever the rest of the game does to
    the world between them. */
module Runs {
  import opened Results
  import opened Values
  import opened Ranges
  import opened Tweeners
  import opened Groups
  import Builder
  import opened Sequencer

  /** The state after `frames` (the host's changes to the world and the
      deltas) of a tween started in world `w`. */
  function RunFor<W>(t: Builder.Tween<W>, w: W, frames: seq<Frame<W>>): (n: Run<W>)
    requires Builder.Unread(t)
    ensures Good(n) && Settled(Builder.Phases(t), n.groups)
  {
    Drive(Start(t, w), frames)
  }

  lemma RunIsAccounted<W>(t: Builder.Tween<W>, w: W, frames: seq<Frame<W>>)
    requires Builder.Unread(t)
    ensures Accounted(RunFor(t, w, frames))
  {
    DriveKeeps(Start(t, w), frames);
  }

  /** The ranges of every phase have run their provider at most once, for
      the whole run: the start value of a tweener is read exactly once. */
  lemma StartsReadAtMostOnce<W>(t: Builder.Tween<W>, w: W, frames: seq<Frame<W>>, k: nat, j: nat)
    requires Builder.Unread(t)
    requires k < |Builder.Phases(t)| && j < |Builder.Phases(t)[k].tweeners|
    ensures RunFor(t, w, frames).groups[k].tweeners[j].range.providerCalls <= 1
  {
    var n := RunFor(t, w, frames);
    assert Ready(n.groups[k]);
  }

  /** Once a tweener has captured its start, later frames never touch its
      range again: the start is read once and then kept for the run. */
  lemma StartIsKept<W>(t: Builder.Tween<W>, w: W, frames: seq<Frame<W>>, more: seq<Frame<W>>, k: nat, j: nat)
    requires Builder.Unread(t)
    requires k < |Builder.Phases(t)| && j < |Builder.Phases(t)[k].tweeners|
    requires RunFor(t, w, frames).groups[k].tweeners[j].range.Captured()
    ensures RunFor(t, w, frames + more).groups[k].tweeners[j] == RunFor(t, w, frames).groups[k].tweeners[j]
  {
    var n := RunFor(t, w, frames);
    DriveAppend(Start(t, w), frames, more);
    var m := Drive(n, more);
    assert Kept(n.groups[k], m.groups[k]);
    assert Persists(n.groups[k].tweeners[j], m.groups[k].tweeners[j]);
  }

  /** Only the phases that existed at the start take part, and a phase
      takes loop steps only if its duration is positive: a zero (or
      negative) duration never divides anything. Every step wrote, for
      each tweener of its phase in order, the eased blend of that
      tweener's captured ends at the step's fraction, and that tweener is
      the configured one: same channel, easing and target. */
  lemma StepsAreProper<W>(t: Builder.Tween<W>, w: W, frames: seq<Frame<W>>)
    requires Builder.Unread(t)
    ensures
      var n := RunFor(t, w, frames);
      forall i :: 0 <= i < |n.trace| && n.trace[i].Step? ==>
        var e := n.trace[i];
        && e.group < |Builder.Phases(t)|
        && 0 < Builder.Phases(t)[e.group].duration
        && |e.written| == |n.groups[e.group].tweeners|
        && forall j :: 0 <= j < |e.written| ==>
             && Persists(Builder.Phases(t)[e.group].tweeners[j], n.groups[e.group].tweeners[j])
             && n.groups[e.group].tweeners[j].range.Captured()
             && e.written[j] == Blended(n.groups[e.group].tweeners[j], e.fraction)
  {
    var n := RunFor(t, w, frames);
    RunIsAccounted(t, w, frames);
    forall i | 0 <= i < |n.trace| && n.trace[i].Step?
      ensures n.trace[i].group < |Builder.Phases(t)| && 0 < Builder.Phases(t)[n.trace[i].group].duration
      ensures |n.trace[i].written| == |n.groups[n.trace[i].group].tweeners|
      ensures forall j :: 0 <= j < |n.trace[i].written| ==>
                && Persists(Builder.Phases(t)[n.trace[i].group].tweeners[j], n.groups[n.trace[i].group].tweeners[j])
                && n.groups[n.trace[i].group].tweeners[j].range.Captured()
                && n.trace[i].written[j] == Blended(n.groups[n.trace[i].group].tweeners[j], n.trace[i].fraction)
    {
      assert Holds(n, i);
      assert Kept(Builder.Phases(t)[n.trace[i].group], n.groups[n.trace[i].group]);
    }
  }

  /** A snap writes, for every tweener of the phase, exactly its `To`,
      which for a `FromTo` range is the value configured in the builder;
      a phase is snapped only once it is over. */
  lemma SnapsWriteTo<W>(t: Builder.Tween<W>, w: W, frames: seq<Frame<W>>)
    requires Builder.Unread(t)
    ensures
      var n := RunFor(t, w, frames);
      forall i :: 0 <= i < |n.trace| && n.trace[i].Snap? ==>
        var e := n.trace[i];
        && e.group < |n.groups|
        && (e.group < n.index || n.status.Destroyed?)
        && |e.written| == |n.groups[e.group].tweeners|
        && (forall j :: 0 <= j < |e.written| ==>
             n.groups[e.group].tweeners[j].range.Captured() &&
             e.written[j] == EndValue(n.groups[e.group].tweeners[j].range))
        && forall j :: 0 <= j < |e.written| && Builder.Phases(t)[e.group].tweeners[j].range.target.Fixed? ==>
             e.written[j] == Builder.Phases(t)[e.group].tweeners[j].range.target.to
  {
    var n := RunFor(t, w, frames);
    RunIsAccounted(t, w, frames);
    forall i | 0 <= i < |n.trace| && n.trace[i].Snap?
      ensures n.trace[i].group < |n.groups| && (n.trace[i].group < n.index || n.status.Destroyed?)
      ensures |n.trace[i].written| == |n.groups[n.trace[i].group].tweeners|
      ensures forall j :: 0 <= j < |n.trace[i].written| ==>
                n.groups[n.trace[i].group].tweeners[j].range.Captured() &&
                n.trace[i].written[j] == EndValue(n.groups[n.trace[i].group].tweeners[j].range)
      ensures forall j :: 0 <= j < |n.trace[i].written| && Builder.Phases(t)[n.trace[i].group].tweeners[j].range.target.Fixed? ==>
                n.trace[i].written[j] == Builder.Phases(t)[n.trace[i].group].tweeners[j].range.target.to
    {
      assert Holds(n, i);
      var k := n.trace[i].group;
      assert Kept(Builder.Phases(t)[k], n.groups[k]);
      forall j | 0 <= j < |n.trace[i].written|
        ensures Persists(Builder.Phases(t)[k].tweeners[j], n.groups[k].tweeners[j])
      {
      }
    }
  }

  /** A destroy happens at most once, as the very last event, for a phase
      flagged `ThenDestroy`; no event of a later phase exists, and further
      frames change nothing. */
  lemma DestroyEndsEverything<W>(t: Builder.Tween<W>, w: W, frames: seq<Frame<W>>, more: seq<Frame<W>>)
    requires Builder.Unread(t)
    ensures
      var n := RunFor(t, w, frames);
      forall i :: 0 <= i < |n.trace| && n.trace[i].Destroy? ==>
        var k := n.trace[i].group;
        && i == |n.trace| - 1
        && n.status.Destroyed?
        && k < |Builder.Phases(t)| && Builder.Phases(t)[k].thenDestroy
        && (forall i' :: 0 <= i' < |n.trace| ==> n.trace[i'].group <= k)
        && Drive(n, more) == n
  {
    var n := RunFor(t, w, frames);
    RunIsAccounted(t, w, frames);
    forall i | 0 <= i < |n.trace| && n.trace[i].Destroy?
      ensures i == |n.trace| - 1 && n.status.Destroyed?
      ensures n.trace[i].group < |Builder.Phases(t)| && Builder.Phases(t)[n.trace[i].group].thenDestroy
      ensures forall i' :: 0 <= i' < |n.trace| ==> n.trace[i'].group <= n.trace[i].group
      ensures Drive(n, more) == n
    {
      assert Holds(n, i);
      forall i' | 0 <= i' < |n.trace|
        ensures n.trace[i'].group <= n.trace[i].group
      {
        assert Holds(n, i');
      }
    }
  }

  /** A run is destroyed exactly when its last event is the destroy of
      the phase it stopped in. */
  lemma DestroyedMeansDestroyEvent<W>(t: Builder.Tween<W>, w: W, frames: seq<Frame<W>>)
    requires Builder.Unread(t)
    ensures
      var n := RunFor(t, w, frames);
      n.status.Destroyed? ==> 0 < |n.trace| && n.trace[|n.trace| - 1] == Destroy(n.index)
  {
    var n := RunFor(t, w, frames);
    RunIsAccounted(t, w, frames);
    if n.status.Destroyed? {
      assert Holds(n, |n.trace| - 1);
    }
  }
}

=== FILE: scenarios.dfy ===
/** Worked examples over a world that is a single value read and written
    whole, as a `transform.position` property is. */
module Scenarios {
  import opened Results
  import opened Values
  import opened Easings
  import opened Ranges
  import opened Tweeners
  import opened Groups
  import Builder
  import opened Sequencer

  /** The world's one channel: the getter returns it, the setter replaces it. */
  function Whole(): (a: Accessor<Value>)
    ensures forall w, v :: ReadsBack(a, w, v)
  {
    Accessor(w => w, (w, v) => v)
  }

  /** A range configured with `To(100)` takes no reading of the world; when
      it is first stepped, with the value at 99, the start is that 99, the
      value at the first step and not any earlier one. */
  lemma StartIsReadAtFirstStep()
    ensures
      var t := Configure(NewChannel(Whole()), To(Float(100.0)), None);
      var o := TweenValue(t, 0.5, Float(99.0));
      && o.Ok?
      && o.value.tweener.range.cache.value.from == Float(99.0)
      && o.value.written == Float(99.5)
      && o.value.world == Float(99.5)
  {
    var t := Configure(NewChannel(Whole()), To(Float(100.0)), None);
    assert Ease(Linear, 0.5) == 0.5;
  }

  /** `Add(5)` on a channel reading 10 runs from 10 to 15. */
  lemma AddRunsFromCurrentToOffset()
    ensures
      var t := Configure(NewChannel(Whole()), By(Float(5.0)), None);
      var o := TweenValue(t, 1.0, Float(10.0));
      && o.Ok?
      && o.value.tweener.range.cache.value == Endpoints(Float(10.0), Float(15.0))
      && o.value.written == Float(15.0)
  {
  }

  /** An `int` channel blends by truncating toward the start: a third of
      the way from 0 to -10 is -3, not -4. */
  lemma Int32RoundsTowardStart()
    ensures Lerp(Int32(0), Int32(-10), 1.0 / 3.0) == Int32(-3)
    ensures Lerp(Int32(0), Int32(10), 1.0 / 3.0) == Int32(3)
  {
    assert Trunc(-10.0 * (1.0 / 3.0)) == -3;
    assert Trunc(10.0 * (1.0 / 3.0)) == 3;
  }

  /** A one-tweener phase steps exactly as its tweener does. */
  lemma StepOne(t: Tweener<Value>, fraction: real, w: Value)
    requires Valid(t.range) && TweenValue(t, fraction, w).Ok?
    ensures
      var h := TweenValue(t, fraction, w).value;
      StepAll([t], fraction, w) == Pass(h.world, [h.tweener], [h.written], None)
  {
    var h := TweenValue(t, fraction, w).value;
    assert [t][1..] == [];
    assert StepAll([t][1..], fraction, h.world) == Pass(h.world, [], [], None);
    assert [h.tweener] + [] == [h.tweener] && [h.written] + [] == [h.written];
  }

  /** A one-tweener phase advances exactly as its tweener steps. */
  lemma AdvanceOne(g: Group<Value>, fraction: real, w: Value)
    requires Ready(g) && |g.tweeners| == 1 && TweenValue(g.tweeners[0], fraction, w).Ok?
    ensures
      var h := TweenValue(g.tweeners[0], fraction, w).value;
      Advance(g, fraction, w) == Ok(Advanced(h.world, g.(tweeners := [h.tweener]), [h.written]))
  {
    assert g.tweeners == [g.tweeners[0]];
    StepOne(g.tweeners[0], fraction, w);
  }

  /** A loop step that `Advance` completes, in closed form. */
  lemma StepPhaseOk<W>(r: Run<W>, dt: nat, a: Advanced<W>)
    requires Good(r) && r.status.Running? && Continues(r)
    requires Advance(r.groups[r.index], Fraction(r, dt), r.world) == Ok(a)
    ensures StepPhase(r, dt) ==
              r.(groups := r.groups[r.index := a.group], elapsed := r.elapsed + dt, world := a.world,
                 trace := r.trace + [Step(r.index, Fraction(r, dt), a.written)])
  {
  }

  /** `To(x)` and `Add(d)` on the world's channel, as the builder makes them. */
  function Toward(x: real): Tweener<Value> {
    Tweener(Whole(), Linear, Lazy(Whole().read, Fixed(Float(x))))
  }

  function Adding(d: real): Tweener<Value> {
    Tweener(Whole(), Linear, Lazy(Whole().read, Offset(Float(d))))
  }

  /** A tweener of the examples after its first step, started from `from`. */
  function Started(t: Tweener<Value>, from: Value, to: Value): Tweener<Value> {
    t.(range := t.range.(cache := Some(Endpoints(from, to)), providerCalls := 1))
  }

  /** The first step of `To(x)` from `a` captures `a` and writes the blend. */
  lemma TowardStep(x: real, a: real, f: real)
    ensures
      var v := Float(Blend(a, x, Ease(Linear, f)));
      TweenValue(Toward(x), f, Float(a)) == Ok(Tweened(v, Started(Toward(x), Float(a), Float(x)), v))
  {
  }

  /** The first step of `Add(d)` from `a` captures `a` and `a + d`. */
  lemma AddingStep(d: real, a: real, f: real)
    ensures
      var v := Float(Blend(a, a + d, Ease(Linear, f)));
      TweenValue(Adding(d), f, Float(a)) == Ok(Tweened(v, Started(Adding(d), Float(a), Float(a + d)), v))
  {
  }

  /** Two phases on the same channel: `Duration(10).To(10).Then.Duration(10).Add(5)`. */
  function TwoPhases(): (t: Builder.Tween<Value>)
    ensures Builder.Unread(t) && |Builder.Phases(t)| == 2
  {
    var t0 := Builder.Apply(Builder.New(), Builder.SetDuration(10));
    Builder.ReconfigureKeepsUnread(Builder.New<Value>(), Builder.SetDuration(10));
    var t1 := Builder.Animate(t0, NewChannel(Whole()), To(Float(10.0)), None);
    var t2 := Builder.Apply(t1, Builder.Then);
    Builder.ReconfigureKeepsUnread(t1, Builder.Then);
    var t3 := Builder.Apply(t2, Builder.SetDuration(10));
    Builder.ReconfigureKeepsUnread(t2, Builder.SetDuration(10));
    Builder.Animate(t3, NewChannel(Whole()), By(Float(5.0)), None)
  }

  /** The run of `TwoPhases` before its first frame. */
  function BeforeFirstFrame(): Run<Value> {
    Run([Group(10, [Toward(10.0)], None, false), Group(10, [Adding(5.0)], None, false)],
        0, 0, Float(0.0), Running, [])
  }

  lemma TwoPhasesShape()
    ensures Start(TwoPhases(), Float(0.0)) == BeforeFirstFrame()
  {
  }

  /** The run after frame one: the first phase stepped to its end. */
  function AfterFirstFrame(): Run<Value> {
    Run([Group(10, [Started(Toward(10.0), Float(0.0), Float(10.0))], None, false), Group(10, [Adding(5.0)], None, false)],
        0, 10, Float(10.0), Running, [Step(0, 1.0, [Float(10.0)])])
  }

  /** The run after frame two: the first phase snapped to 10, the second
      started from that 10 and stepped to 15. */
  function AfterSecondFrame(): Run<Value> {
    Run([Group(10, [Started(Toward(10.0), Float(0.0), Float(10.0))], None, false),
         Group(10, [Started(Adding(5.0), Float(10.0), Float(15.0))], None, false)],
        1, 10, Float(15.0), Running,
        [Step(0, 1.0, [Float(10.0)]), Snap(0, [Float(10.0)]), Step(1, 1.0, [Float(15.0)])])
  }

  /** Frame one: a step at fraction 10/10 of the first phase writes 10. */
  lemma FirstFrame()
    ensures Resume(Start(TwoPhases(), Float(0.0)), 10) == AfterFirstFrame()
  {
    TwoPhasesShape();
    FirstStep();
  }

  /** The first phase of `TwoPhases` advanced by a frame of 10 ticks. */
  lemma FirstAdvance()
    ensures
      var r0 := BeforeFirstFrame();
      && Good(r0) && r0.status.Running? && Continues(r0)
      && Advance(r0.groups[r0.index], Fraction(r0, 10), r0.world) ==
           Ok(Advanced(Float(10.0), r0.groups[0].(tweeners := [Started(Toward(10.0), Float(0.0), Float(10.0))]), [Float(10.0)]))
  {
    var r0 := BeforeFirstFrame();
    assert Fraction(r0, 10) == 1.0;
    TowardStep(10.0, 0.0, 1.0);
    AdvanceOne(r0.groups[0], 1.0, Float(0.0));
  }

  lemma FirstStepPhase()
    ensures Continues(BeforeFirstFrame()) && StepPhase(BeforeFirstFrame(), 10) == AfterFirstFrame()
  {
    FirstAdvance();
    var h := Started(Toward(10.0), Float(0.0), Float(10.0));
    StepPhaseOk(BeforeFirstFrame(), 10, Advanced(Float(10.0), BeforeFirstFrame().groups[0].(tweeners := [h]), [Float(10.0)]));
  }

  lemma FirstStep()
    ensures Resume(BeforeFirstFrame(), 10) == AfterFirstFrame()
  {
    FirstStepPhase();
  }

  /** Frame two: the first phase is over, so it is snapped to 10; the
      second phase then takes its first step in the same frame, capturing
      10 as its start and reaching 10 + 5. */
  lemma SecondFrame()
    ensures Resume(AfterFirstFrame(), 10) == AfterSecondFrame()
  {
    var r1 := AfterFirstFrame();
    assert !Continues(r1);
    var g := r1.groups[0];
    assert AllCaptured(g.tweeners);
    AdvanceOne(g, 1.0, Float(10.0));
    var f := Finish(r1);
    assert f == r1.(index := 1, elapsed := 0, trace := r1.trace + [Snap(0, [Float(10.0)])]);
    assert Continues(f);
    assert Fraction(f, 10) == 1.0;
    AddingStep(5.0, 10.0, 1.0);
    AdvanceOne(f.groups[1], 1.0, Float(10.0));
    var h := Started(Adding(5.0), Float(10.0), Float(15.0));
    StepPhaseOk(f, 10, Advanced(Float(15.0), f.groups[1].(tweeners := [h]), [Float(15.0)]));
  }

  /** Frame three: the second phase is over and is snapped to 15, and the
      run finishes. */
  lemma ThirdFrame()
    ensures
      var n := Resume(AfterSecondFrame(), 1);
      && n.status == Finished
      && n.world == Float(15.0)
      && n.trace == [Step(0, 1.0, [Float(10.0)]), Snap(0, [Float(10.0)]),
                     Step(1, 1.0, [Float(15.0)]), Snap(1, [Float(15.0)])]
  {
    var r2 := AfterSecondFrame();
    assert !Continues(r2);
    var g := r2.groups[1];
    assert AllCaptured(g.tweeners);
    AdvanceOne(g, 1.0, Float(15.0));
    assert Resume(r2, 1).trace == r2.trace + [Snap(1, [Float(15.0)])];
  }

  /** Run from 0 with frames of 10, 10 and 1 ticks: the first phase
      reaches 10 in one step and is snapped at the next frame, in which the
      second phase starts from that 10 and reaches 15; the last frame snaps
      it and the run finishes at 15. */
  lemma TwoPhasesEndAtFifteen()
    ensures
      var n := Resume(Resume(Resume(Start(TwoPhases(), Float(0.0)), 10), 10), 1);
      && n.status == Finished
      && n.world == Float(15.0)
      && n.trace == [Step(0, 1.0, [Float(10.0)]), Snap(0, [Float(10.0)]),
                     Step(1, 1.0, [Float(15.0)]), Snap(1, [Float(15.0)])]
  {
    FirstFrame();
    SecondFrame();
    ThirdFrame();
  }

  /** The stop predicate of the next example: the value has reached 5. */
  predicate AtLeastFive(w: Value) {
    w.Float? && w.f >= 5.0
  }

  /** `Duration(10).To(10).StopWhen(value >= 5)` from 0. */
  function StopAtFive(): (t: Builder.Tween<Value>)
    ensures Builder.Unread(t)
  {
    var t0 := Builder.Apply(Builder.New(), Builder.SetDuration(10));
    Builder.ReconfigureKeepsUnread(Builder.New<Value>(), Builder.SetDuration(10));
    var t1 := Builder.Animate(t0, NewChannel(Whole()), To(Float(10.0)), None);
    Builder.ReconfigureKeepsUnread(t1, Builder.SetStop(AtLeastFive));
    Builder.Apply(t1, Builder.SetStop(AtLeastFive))
  }

  lemma StopShape()
    ensures Start(StopAtFive(), Float(0.0)) ==
              Run([Group(10, [Toward(10.0)], Some(AtLeastFive), false)], 0, 0, Float(0.0), Running, [])
  {
  }

  function StoppedAtSix(): Run<Value> {
    Run([Group(10, [Started(Toward(10.0), Float(0.0), Float(10.0))], Some(AtLeastFive), false)],
        0, 6, Float(6.0), Running, [Step(0, 0.6, [Float(6.0)])])
  }

  lemma StepToSix()
    ensures Resume(Start(StopAtFive(), Float(0.0)), 6) == StoppedAtSix()
  {
    StopShape();
    var r0 := Run([Group(10, [Toward(10.0)], Some(AtLeastFive), false)], 0, 0, Float(0.0), Running, []);
    assert Continues(r0);
    assert Fraction(r0, 6) == 0.6;
    assert Ease(Linear, 0.6) == 0.6;
    TowardStep(10.0, 0.0, 0.6);
    AdvanceOne(r0.groups[0], 0.6, Float(0.0));
    var h := Started(Toward(10.0), Float(0.0), Float(10.0));
    StepPhaseOk(r0, 6, Advanced(Float(6.0), r0.groups[0].(tweeners := [h]), [Float(6.0)]));
  }

  /** A phase whose stop predicate turns true is left where the last step
      put it: the frame after the step to 6 neither steps nor snaps, so the
      value stays 6 and never reaches `To`. */
  lemma StopSkipsTheSnap()
    ensures
      var n := Resume(Resume(Start(StopAtFive(), Float(0.0)), 6), 6);
      && n.status == Finished
      && n.world == Float(6.0)
      && n.trace == [Step(0, 0.6, [Float(6.0)])]
  {
    StepToSix();
    var r1 := StoppedAtSix();
    assert ShouldStop(r1.groups[0], r1.world);
    assert Resume(r1, 6) == Leave(r1);
  }

  /** `Duration(0).To(7).ThenDestroy().Then.To(9)` from 0. */
  function DestroyAfterFirst(): (t: Builder.Tween<Value>)
    ensures Builder.Unread(t)
  {
    var t0 := Builder.Animate(Builder.New(), NewChannel(Whole()), To(Float(7.0)), None);
    var t1 := Builder.Apply(t0, Builder.SetDestroy);
    Builder.ReconfigureKeepsUnread(t0, Builder.SetDestroy);
    var t2 := Builder.Apply(t1, Builder.Then);
    Builder.ReconfigureKeepsUnread(t1, Builder.Then);
    Builder.Animate(t2, NewChannel(Whole()), To(Float(9.0)), None)
  }

  lemma DestroyShape()
    ensures Start(DestroyAfterFirst(), Float(0.0)) ==
              Run([Group(0, [Toward(7.0)], None, true), Group(0, [Toward(9.0)], None, false)],
                  0, 0, Float(0.0), Running, [])
  {
  }

  /** The first frame: the zero-duration phase is snapped to 7 and the
      destroy flag ends the run. */
  lemma DestroyFrame()
    ensures
      var n := Resume(Start(DestroyAfterFirst(), Float(0.0)), 1);
      n.status == Destroyed && n.world == Float(7.0) && n.trace == [Snap(0, [Float(7.0)]), Destroy(0)]
  {
    DestroyShape();
    var r0 := Run([Group(0, [Toward(7.0)], None, true), Group(0, [Toward(9.0)], None, false)],
                  0, 0, Float(0.0), Running, []);
    assert !Continues(r0);
    TowardStep(7.0, 0.0, 1.0);
    AdvanceOne(r0.groups[0], 1.0, Float(0.0));
  }

  /** A zero-duration phase takes no step and is snapped in the first
      frame; its destroy flag then ends the run, so the phase after it
      never runs, later frames change nothing and the value stays 7. */
  lemma DestroyEndsTheRun()
    ensures
      var n := Resume(Resume(Start(DestroyAfterFirst(), Float(0.0)), 1), 1);
      && n.status == Destroyed
      && n.world == Float(7.0)
      && n.trace == [Snap(0, [Float(7.0)]), Destroy(0)]
  {
    DestroyFrame();
  }

  /** `Add` on a rotation is accepted while configuring and ends the run
      with `NotSupportedException` in its first frame. Being the phase's
      only tweener, it leaves the world as it was. */
  lemma QuaternionAddFaultsTheRun(d: Value)
    ensures
      var t := Builder.Animate(Builder.Apply(Builder.New(), Builder.SetDuration(10)), NewChannel(Whole()), By(d), None);
      var n := Resume(Start(t, Quaternion(0.0, 0.0, 0.0, 1.0)), 1);
      && n.status == Faulted(NotSupported)
      && n.world == Quaternion(0.0, 0.0, 0.0, 1.0)
      && n.trace == []
  {
    var t := Builder.Animate(Builder.Apply(Builder.New(), Builder.SetDuration(10)), NewChannel(Whole()), By(d), None);
    var r0 := Start(t, Quaternion(0.0, 0.0, 0.0, 1.0));
    assert Continues(r0);
    var tw := r0.groups[0].tweeners[0];
    assert r0.groups[0].tweeners == [tw];
    assert TweenValue(tw, Fraction(r0, 1), r0.world) == Thrown(NotSupported);
  }

  /** A world of two channels, each read and written on its own: a float
      and a rotation. */
  function Left(): Accessor<(Value, Value)> {
    Accessor((w: (Value, Value)) => w.0, (w: (Value, Value), v: Value) => (v, w.1))
  }

  function Right(): Accessor<(Value, Value)> {
    Accessor((w: (Value, Value)) => w.1, (w: (Value, Value), v: Value) => (w.0, v))
  }

  /** `Duration(10)` with the float tweened `To(10)` and then the rotation
      tweened by `Add`, in one phase. */
  function FloatThenRotation(): (t: Builder.Tween<(Value, Value)>)
    ensures Builder.Unread(t)
  {
    var t0 := Builder.Apply(Builder.New(), Builder.SetDuration(10));
    Builder.ReconfigureKeepsUnread(Builder.New<(Value, Value)>(), Builder.SetDuration(10));
    var t1 := Builder.Animate(t0, NewChannel(Left()), To(Float(10.0)), None);
    Builder.Animate(t1, NewChannel(Right()), By(Float(1.0)), None)
  }

  lemma FloatThenRotationShape()
    ensures Builder.Phases(FloatThenRotation()) ==
              [Group(10, [Tweener(Left(), Linear, Lazy(Left().read, Fixed(Float(10.0)))),
                          Tweener(Right(), Linear, Lazy(Right().read, Offset(Float(1.0))))], None, false)]
  {
    var t0 := Builder.Apply(Builder.New(), Builder.SetDuration(10));
    Builder.ReconfigureKeepsUnread(Builder.New<(Value, Value)>(), Builder.SetDuration(10));
    assert t0 == Builder.Tween([], Group(10, [], None, false));
    var t1 := Builder.Animate(t0, NewChannel(Left()), To(Float(10.0)), None);
    assert t1.current.tweeners == [Configure(NewChannel(Left()), To(Float(10.0)), None)];
    var t2 := Builder.Animate(t1, NewChannel(Right()), By(Float(1.0)), None);
    assert FloatThenRotation() == t2;
    assert t2.current.tweeners == [Configure(NewChannel(Left()), To(Float(10.0)), None), Configure(NewChannel(Right()), By(Float(1.0)), None)];
    assert Configure(NewChannel(Left()), To(Float(10.0)), None) == Tweener(Left(), Linear, Lazy(Left().read, Fixed(Float(10.0))));
    assert Configure(NewChannel(Right()), By(Float(1.0)), None) == Tweener(Right(), Linear, Lazy(Right().read, Offset(Float(1.0))));
    assert t2.earlier == [];
  }

  /** The throw comes after the float's setter has run: halfway through
      the phase the float is already 5 when the run ends, and the
      rotation is untouched. */
  lemma EarlierWritesSurviveTheThrow()
    ensures
      var n := Resume(Start(FloatThenRotation(), (Float(0.0), Quaternion(0.0, 0.0, 0.0, 1.0))), 5);
      && n.status == Faulted(NotSupported)
      && n.world == (Float(5.0), Quaternion(0.0, 0.0, 0.0, 1.0))
      && n.trace == []
  {
    var w := (Float(0.0), Quaternion(0.0, 0.0, 0.0, 1.0));
    var r0 := Start(FloatThenRotation(), w);
    var a := Tweener(Left(), Linear, Lazy(Left().read, Fixed(Float(10.0))));
    var b := Tweener(Right(), Linear, Lazy(Right().read, Offset(Float(1.0))));
    FloatThenRotationShape();
    assert Continues(r0);
    assert Fraction(r0, 5) == 0.5;
    assert Ease(Linear, 0.5) == 0.5;
    var h := TweenValue(a, 0.5, w);
    assert h.Ok? && h.value.world == (Float(5.0), Quaternion(0.0, 0.0, 0.0, 1.0));
    assert TweenValue(b, 0.5, h.value.world) == Thrown(NotSupported);
    assert [a, b][1..] == [b];
    assert StepAll([b], 0.5, h.value.world) == Pass(h.value.world, [], [], Some(NotSupported));
  }

  /** The stop predicate watches the world, not the tween: after a step
      to 2, the rest of the game sets the value to 7, and the next frame
      ends the phase without a step or a snap. */
  lemma HostChangeStopsThePhase()
    ensures
      var n := Drive(Start(StopAtFive(), Float(0.0)), [Frame(w => w, 2), Frame(w => Float(7.0), 2)]);
      && n.status == Finished
      && n.world == Float(7.0)
      && n.trace == [Step(0, 0.2, [Float(2.0)])]
  {
    StopShape();
    var r0 := Run([Group(10, [Toward(10.0)], Some(AtLeastFive), false)], 0, 0, Float(0.0), Running, []);
    assert Host(r0, w => w) == r0;
    assert Continues(r0);
    assert Fraction(r0, 2) == 0.2;
    assert Ease(Linear, 0.2) == 0.2;
    TowardStep(10.0, 0.0, 0.2);
    AdvanceOne(r0.groups[0], 0.2, Float(0.0));
    var h := Started(Toward(10.0), Float(0.0), Float(10.0));
    StepPhaseOk(r0, 2, Advanced(Float(2.0), r0.groups[0].(tweeners := [h]), [Float(2.0)]));
    var r1 := Resume(r0, 2);
    var r2 := Host(r1, w => Float(7.0));
    assert ShouldStop(r2.groups[0], r2.world);
    assert Resume(r2, 2) == Leave(r2);
  }
}

=== FILE: sequencer.dfy ===
/** `Tween.Coroutine` as an explicit step function.

    The coroutine is resumed once per frame. One resumption runs from where
    the previous one stopped to the next `yield return`, or to the end:
      - in the current phase, while `elapsed < duration` and the phase's
        stop predicate is false, add the frame's delta to `elapsed`,
        advance every tweener with `elapsed / duration` and yield;
      - once the loop exits, snap every tweener with `Tween(1)` unless the
        phase should stop; then either destroy the object and end, or go
        straight on to the next phase, in the same frame, with the same
        delta.
    The phase list is copied when the run starts. Destruction is recorded
    as an event. Each frame's `Time.deltaTime`, and what the rest of the
    game did to the world since the previous frame, are parameters. */
module Sequencer {
  import opened Results
  import opened Values
  import opened Easings
  import opened Ranges
  import opened Tweeners
  import opened Groups
  import Builder

  datatype Status = Running | Finished | Destroyed | Faulted(error: Error)

  /** What a run did, in order: a loop step of a phase with its fraction,
      a snap of a phase to its ends, the destruction of the object. Each
      records the values handed to the tweeners' setters. */
  datatype Event =
    | Step(group: nat, fraction: real, written: seq<Value>)
    | Snap(group: nat, written: seq<Value>)
    | Destroy(group: nat)

  /** The coroutine's state between two frames: its copy of the phases
      (with the ranges they have captured so far), the current phase and
      its elapsed ticks, the world and the events so far. */
  datatype Run<!W> = Run(
    groups: seq<Group<W>>,
    index: nat,
    elapsed: int,
    world: W,
    status: Status,
    trace: seq<Event>)

  /** The state shape every reachable run has. */
  predicate Good<W>(r: Run<W>) {
    && r.index <= |r.groups|
    && (r.status.Running? || r.status.Destroyed? ==> r.index < |r.groups|)
    && 0 <= r.elapsed
    && forall k :: 0 <= k < |r.groups| ==> Ready(r.groups[k])
  }

  /** The phases `hs` are the phases `gs` at some later time: every
      setting and every tweener's channel, easing, provider and target
      agree, and a range captured in `gs` is unchanged in `hs`. */
  ghost predicate Settled<W>(gs: seq<Group<W>>, hs: seq<Group<W>>) {
    && |hs| == |gs|
    && forall k :: 0 <= k < |gs| ==> Kept(gs[k], hs[k])
  }

  lemma SettledChains<W>(gs: seq<Group<W>>, hs: seq<Group<W>>, ks: seq<Group<W>>)
    requires Settled(gs, hs) && Settled(hs, ks)
    ensures Settled(gs, ks)
  {
    forall k | 0 <= k < |gs|
      ensures Kept(gs[k], ks[k])
    {
      assert Kept(gs[k], hs[k]) && Kept(hs[k], ks[k]);
      forall j | 0 <= j < |gs[k].tweeners|
        ensures Persists(gs[k].tweeners[j], ks[k].tweeners[j])
      {
        assert Persists(gs[k].tweeners[j], hs[k].tweeners[j]);
        assert Persists(hs[k].tweeners[j], ks[k].tweeners[j]);
      }
    }
  }

  /** Nothing happened yet. */
  lemma SettledSame<W>(gs: seq<Group<W>>)
    ensures Settled(gs, gs)
  {
    forall k | 0 <= k < |gs|
      ensures Kept(gs[k], gs[k])
    {
    }
  }

  /** Rewriting phase `i` with what `Advance` made of it keeps the phases
      settled. */
  lemma SettledByAdvance<W>(gs: seq<Group<W>>, i: nat, f: real, w: W)
    requires i < |gs| && Ready(gs[i]) && Advance(gs[i], f, w).Ok?
    ensures Settled(gs, gs[i := Advance(gs[i], f, w).value.group])
  {
    var h := Advance(gs[i], f, w).value.group;
    forall k | 0 <= k < |gs|
      ensures Kept(gs[k], gs[i := h][k])
    {
      if k == i {
        forall j | 0 <= j < |gs[k].tweeners|
          ensures Persists(gs[k].tweeners[j], h.tweeners[j])
        {
          assert Stepped(gs[k].tweeners[j], h.tweeners[j]);
        }
      }
    }
  }

  /** `StartCoroutine`: copy the phases, start at the first one. */
  function Start<W>(t: Builder.Tween<W>, w: W): (r: Run<W>)
    requires Builder.Unread(t)
    ensures Good(r) && r.status.Running? && r.trace == []
    ensures r.groups == Builder.Phases(t) && r.index == 0 && r.elapsed == 0 && r.world == w
  {
    Run(Builder.Phases(t), 0, 0, w, Running, [])
  }

  /** Does the loop of the current phase take another turn? */
  predicate Continues<W>(r: Run<W>)
    requires Good(r) && r.status.Running?
  {
    r.elapsed < r.groups[r.index].duration && !ShouldStop(r.groups[r.index], r.world)
  }

  /** `elapsed.TotalSeconds / duration.TotalSeconds`. */
  function Ratio(elapsed: int, duration: int): real
    requires 0 < duration
  {
    elapsed as real / duration as real
  }

  /** `elapsed / duration` after adding `dt`, for a phase whose loop runs. */
  function Fraction<W>(r: Run<W>, dt: nat): real
    requires Good(r) && r.status.Running? && Continues(r)
  {
    Ratio(r.elapsed + dt, r.groups[r.index].duration)
  }

  /** One turn of the loop: the elapsed time grows by `dt` and every
      tweener of the phase advances to `elapsed / duration`. The duration
      is positive here, so the division is defined. */
  function StepPhase<W>(r: Run<W>, dt: nat): (n: Run<W>)
    requires Good(r) && r.status.Running? && Continues(r)
    ensures Good(n) && |n.groups| == |r.groups| && n.index == r.index
    ensures Settled(r.groups, n.groups)
    ensures n.status.Running? || n.status.Faulted?
    ensures n.status.Running? ==>
              && n.elapsed == r.elapsed + dt
              && 0 < n.groups[n.index].duration == r.groups[r.index].duration
              && |n.trace| == |r.trace| + 1 && n.trace[..|r.trace|] == r.trace
              && n.trace[|n.trace| - 1].Step? && n.trace[|n.trace| - 1].group == r.index
              && n.trace[|n.trace| - 1].fraction == Fraction(r, dt)
    ensures n.status.Faulted? ==> n.trace == r.trace && n.groups == r.groups
    // the step is `Advance` at the new fraction
    ensures n.status.Running? <==> Advance(r.groups[r.index], Fraction(r, dt), r.world).Ok?
    ensures n.status.Running? ==>
              var a := Advance(r.groups[r.index], Fraction(r, dt), r.world).value;
              && n.groups == r.groups[r.index := a.group]
              && n.world == a.world
              && n.trace == r.trace + [Step(r.index, Fraction(r, dt), a.written)]
    // an exception ends the run in the world the setters before the
    // throwing tweener left
    ensures n.status.Faulted? ==>
              var p := StepAll(r.groups[r.index].tweeners, Fraction(r, dt), r.world);
              && p.fault == Some(n.status.error)
              && n.world == p.world == Writes(r.groups[r.index].tweeners, p.written, r.world)
              && n == r.(status := n.status, world := n.world)
  {
    var o := Advance(r.groups[r.index], Fraction(r, dt), r.world);
    if o.Thrown? then
      SettledSame(r.groups);
      r.(status := Faulted(o.error), world := StepAll(r.groups[r.index].tweeners, Fraction(r, dt), r.world).world)
    else
      SettledByAdvance(r.groups, r.index, Fraction(r, dt), r.world);
      var n := r.(groups := r.groups[r.index := o.value.group], elapsed := r.elapsed + dt, world := o.value.world,
                  trace := r.trace + [Step(r.index, Fraction(r, dt), o.value.written)]);
      n
  }

  /** After the loop: destroy and end if the phase asks for it, otherwise
      move to the next phase (or finish after the last one). */
  function Leave<W>(r: Run<W>): (n: Run<W>)
    requires Good(r) && r.status.Running?
    ensures Good(n) && n.groups == r.groups && n.world == r.world
    ensures r.groups[r.index].thenDestroy ==>
              n.status == Destroyed && n.index == r.index && n.trace == r.trace + [Destroy(r.index)]
    ensures !r.groups[r.index].thenDestroy ==>
              && n.index == r.index + 1 && n.elapsed == 0 && n.trace == r.trace
              && (n.status.Running? <==> n.index < |n.groups|)
              && (n.status.Finished? <==> n.index == |n.groups|)
  {
    if r.groups[r.index].thenDestroy then
      r.(status := Destroyed, trace := r.trace + [Destroy(r.index)])
    else
      r.(index := r.index + 1, elapsed := 0, status := if r.index + 1 < |r.groups| then Running else Finished)
  }

  /** The code after the loop: unless the phase's stop predicate, asked
      again in the world the loop left, says stop, every tweener is
      snapped to its end (fraction 1); then `Leave`. A stopped phase is
      not snapped. */
  function Finish<W>(r: Run<W>): (n: Run<W>)
    requires Good(r) && r.status.Running?
    ensures Good(n) && |n.groups| == |r.groups|
    ensures Settled(r.groups, n.groups)
    ensures ShouldStop(r.groups[r.index], r.world) ==> n == Leave(r)
    ensures !ShouldStop(r.groups[r.index], r.world) && !n.status.Faulted? ==>
              |n.trace| > |r.trace| && n.trace[|r.trace|].Snap? && n.trace[|r.trace|].group == r.index
    ensures n.status.Faulted? ==> n.trace == r.trace && n.groups == r.groups
    // the snap is `Advance` at fraction 1, in the world the loop left
    ensures !ShouldStop(r.groups[r.index], r.world) ==>
              (n.status.Faulted? <==> Advance(r.groups[r.index], 1.0, r.world).Thrown?)
    ensures !ShouldStop(r.groups[r.index], r.world) && !n.status.Faulted? ==>
              var a := Advance(r.groups[r.index], 1.0, r.world).value;
              && n.groups == r.groups[r.index := a.group]
              && n.world == a.world
              && n.trace[|r.trace|] == Snap(r.index, a.written)
    ensures n.status.Faulted? ==>
              var p := StepAll(r.groups[r.index].tweeners, 1.0, r.world);
              && p.fault == Some(n.status.error)
              && n.world == p.world == Writes(r.groups[r.index].tweeners, p.written, r.world)
              && n == r.(status := n.status, world := n.world)
    ensures r.trace <= n.trace && r.index <= n.index
    ensures n.status.Running? ==> n.index == r.index + 1 && n.elapsed == 0
    ensures n.status.Destroyed? ==>
              n.index == r.index && 0 < |n.trace| && n.trace[|n.trace| - 1] == Destroy(n.index) && n.groups[n.index].thenDestroy
  {
    var g := r.groups[r.index];
    if ShouldStop(g, r.world) then SettledSame(r.groups); Leave(r)
    else
      match Advance(g, 1.0, r.world)
      case Thrown(err) => SettledSame(r.groups); r.(status := Faulted(err), world := StepAll(g.tweeners, 1.0, r.world).world)
      case Ok(a) =>
        SettledByAdvance(r.groups, r.index, 1.0, r.world);
        Leave(r.(groups := r.groups[r.index := a.group], world := a.world,
                 trace := r.trace + [Snap(r.index, a.written)]))
  }

  /** One resumption of the coroutine with the frame's delta `dt`. A run
      that has ended stays as it is. A resumption that leaves the run
      going has just taken a loop step of a phase with positive duration. */
  function Resume<W>(r: Run<W>, dt: nat): (n: Run<W>)
    requires Good(r)
    ensures Good(n) && |n.groups| == |r.groups|
    ensures Settled(r.groups, n.groups)
    ensures !r.status.Running? ==> n == r
    ensures r.trace <= n.trace && r.index <= n.index
    decreases |r.groups| - r.index
  {
    if !r.status.Running? then r
    else if Continues(r) then StepPhase(r, dt)
    else
      var f := Finish(r);
      if f.status.Running? then
        var n := Resume(f, dt);
        SettledChains(r.groups, f.groups, n.groups);
        assert r.trace <= f.trace <= n.trace && r.index < f.index <= n.index;
        n
      else f
  }

  /** If `n`, reached from `r` in a frame of `dt` ticks, is still running,
      it has just taken a loop step of its current phase, after the events
      of `r`, and that phase has a positive duration. The frame's delta was
      added to the phase's elapsed time (which starts from 0 when the frame
      moved on to a new phase), and the step was taken at
      `elapsed / duration`. */
  predicate EndsOnAStep<W>(r: Run<W>, dt: nat, n: Run<W>)
    requires Good(n)
  {
    n.status.Running? ==>
      && |n.trace| > |r.trace|
      && n.trace[|n.trace| - 1].Step?
      && n.trace[|n.trace| - 1].group == n.index
      && 0 < n.groups[n.index].duration
      && n.elapsed == (if n.index == r.index then r.elapsed else 0) + dt
      && n.trace[|n.trace| - 1].fraction == Ratio(n.elapsed, n.groups[n.index].duration)
  }

  /** A resumption that leaves the run going has just taken a loop step of
      its current phase. */
  lemma {:induction false} ResumeEndsOnAStep<W>(r: Run<W>, dt: nat)
    requires Good(r) && r.status.Running?
    ensures EndsOnAStep(r, dt, Resume(r, dt))
    decreases |r.groups| - r.index, 1
  {
    if Continues(r) {
      assert Resume(r, dt) == StepPhase(r, dt);
      StepEndsOnAStep(r, dt);
    } else {
      LeaveEndsOnAStep(r, dt);
    }
  }

  /** The same, for a resumption that takes a loop step of its phase. */
  lemma StepEndsOnAStep<W>(r: Run<W>, dt: nat)
    requires Good(r) && r.status.Running? && Continues(r)
    ensures EndsOnAStep(r, dt, StepPhase(r, dt))
  {
    StepIsOnAStep(r, dt, StepPhase(r, dt));
  }

  /** What `StepPhase` promises about a run that keeps going is enough for
      `EndsOnAStep`. */
  lemma StepIsOnAStep<W>(r: Run<W>, dt: nat, n: Run<W>)
    requires Good(r) && r.status.Running? && Continues(r) && Good(n)
    requires n.status.Running? ==>
               && n.elapsed == r.elapsed + dt && n.index == r.index
               && 0 < n.groups[n.index].duration == r.groups[r.index].duration
               && |n.trace| == |r.trace| + 1
               && n.trace[|n.trace| - 1].Step? && n.trace[|n.trace| - 1].group == r.index
               && n.trace[|n.trace| - 1].fraction == Fraction(r, dt)
    ensures EndsOnAStep(r, dt, n)
  {
  }

  /** The same, for a resumption that starts by leaving its phase. */
  lemma {:induction false} LeaveEndsOnAStep<W>(r: Run<W>, dt: nat)
    requires Good(r) && r.status.Running? && !Continues(r)
    ensures EndsOnAStep(r, dt, Resume(r, dt))
    decreases |r.groups| - r.index, 0
  {
    var f := Finish(r);
    if f.status.Running? {
      assert Resume(r, dt) == Resume(f, dt);
      ResumeEndsOnAStep(f, dt);
      assert f.elapsed == 0 && r.index < f.index <= Resume(f, dt).index;
    }
  }

  /** One frame: what the rest of the game (other scripts, physics,
      input) did to the world since the previous frame, then the frame's
      `Time.deltaTime`. */
  datatype Frame<!W> = Frame(host: W -> W, dt: nat)

  /** The rest of the game acts on the world between two resumptions. A
      run that has ended no longer follows the world. */
  function Host<W>(r: Run<W>, change: W -> W): (n: Run<W>)
    ensures n == r.(world := n.world)
    ensures r.status.Running? ==> n.world == change(r.world)
    ensures !r.status.Running? ==> n == r
  {
    if r.status.Running? then r.(world := change(r.world)) else r
  }

  /** Per frame: the host's change, then one resumption with the frame's
      delta. */
  function Drive<W>(r: Run<W>, frames: seq<Frame<W>>): (n: Run<W>)
    requires Good(r)
    ensures Good(n) && Settled(r.groups, n.groups)
    ensures r.trace <= n.trace && r.index <= n.index
    ensures !r.status.Running? ==> n == r
    decreases |frames|
  {
    if frames == [] then r else Drive(Resume(Host(r, frames[0].host), frames[0].dt), frames[1..])
  }

  /** Driving over two runs of frames is driving over the first and then
      over the second. */
  lemma {:induction false} DriveAppend<W>(r: Run<W>, frames: seq<Frame<W>>, more: seq<Frame<W>>)
    requires Good(r)
    ensures Drive(r, frames + more) == Drive(Drive(r, frames), more)
    decreases |frames|
  {
    if frames == [] {
      assert frames + more == more;
    } else {
      assert (frames + more)[1..] == frames[1..] + more;
      DriveAppend(Resume(Host(r, frames[0].host), frames[0].dt), frames[1..], more);
    }
  }

  /** What event `i` of the trace records, checked against the run's
      phases as they are now:
        - a loop step happened in a phase of positive duration and wrote,
          for every tweener in order, the eased blend of its captured ends
          at the step's fraction;
        - a snap happened when its phase was over and wrote every
          tweener's `To`;
        - a destroy is the last event, of the phase that asked for it, and
          the run is over. */
  ghost predicate Holds<W>(r: Run<W>, i: nat)
    requires Good(r) && i < |r.trace|
  {
    var e := r.trace[i];
    && e.group < |r.groups|
    && e.group <= r.index
    && match e
       case Step(k, f, ws) =>
         && 0 < r.groups[k].duration
         && |ws| == |r.groups[k].tweeners|
         && forall j :: 0 <= j < |ws| ==>
              r.groups[k].tweeners[j].range.Captured() && ws[j] == Blended(r.groups[k].tweeners[j], f)
       case Snap(k, ws) =>
         && (k < r.index || r.status.Destroyed?)
         && |ws| == |r.groups[k].tweeners|
         && forall j :: 0 <= j < |ws| ==>
              r.groups[k].tweeners[j].range.Captured() && ws[j] == EndValue(r.groups[k].tweeners[j].range)
       case Destroy(k) =>
         i == |r.trace| - 1 && r.status.Destroyed? && k == r.index && r.groups[k].thenDestroy
  }

  /** Every event of the trace holds, and a destroyed run ends with its
      destroy event. */
  ghost predicate Accounted<W>(r: Run<W>)
    requires Good(r)
  {
    && (forall i :: 0 <= i < |r.trace| ==> Holds(r, i))
    && (r.status.Destroyed? ==> 0 < |r.trace| && r.trace[|r.trace| - 1].Destroy?)
  }

  /** An event of a running run still holds after a transition that keeps
      it, keeps its phase and does not move backwards. */
  lemma Carry<W>(r: Run<W>, n: Run<W>, i: nat)
    requires Good(r) && Good(n) && r.status.Running?
    requires i < |r.trace| && Holds(r, i)
    requires i < |n.trace| && n.trace[i] == r.trace[i]
    requires |n.groups| == |r.groups| && r.index <= n.index
    requires n.groups[r.trace[i].group] == r.groups[r.trace[i].group]
    ensures Holds(n, i)
  {
  }

  /** The events recorded before a phase is rewritten by `Advance` still
      hold: the phase had either no events yet or only loop steps, after
      which all its ranges were captured and `Advance` changed none of them. */
  lemma Rewrite<W>(r: Run<W>, a: Advanced<W>, f: real, n: Run<W>)
    requires Good(r) && r.status.Running? && Accounted(r)
    requires Advance(r.groups[r.index], f, r.world) == Ok(a)
    requires Good(n) && n.groups == r.groups[r.index := a.group] && r.index <= n.index
    requires r.trace <= n.trace
    ensures forall i :: 0 <= i < |r.trace| ==> Holds(n, i)
  {
    var g := r.groups[r.index];
    forall i | 0 <= i < |r.trace|
      ensures Holds(n, i)
    {
      assert Holds(r, i);
      if r.trace[i].group == r.index {
        assert r.trace[i].Step?;
        assert AllCaptured(g.tweeners);
        assert a.group == g;
      }
      assert n.trace[i] == r.trace[i];
      Carry(r, n, i);
    }
  }

  /** An exception ends the run with the trace it had, in whatever world
      the setters left. */
  lemma FaultKeeps<W>(r: Run<W>, e: Error, v: W)
    requires Good(r) && r.status.Running? && Accounted(r)
    ensures Good(r.(status := Faulted(e), world := v)) && Accounted(r.(status := Faulted(e), world := v))
  {
    var n := r.(status := Faulted(e), world := v);
    forall i | 0 <= i < |r.trace|
      ensures Holds(n, i)
    {
      Carry(r, n, i);
    }
  }

  /** The state after a loop step that `Advance` completed is accounted
      for: earlier events by `Rewrite`, the new step by `Advance`'s
      contract. */
  lemma StepAccounted<W>(r: Run<W>, a: Advanced<W>, f: real, n: Run<W>)
    requires Good(r) && r.status.Running? && Accounted(r) && 0 < r.groups[r.index].duration
    requires Advance(r.groups[r.index], f, r.world) == Ok(a)
    requires Good(n) && n.status.Running? && n.index == r.index
    requires n.groups == r.groups[r.index := a.group]
    requires n.trace == r.trace + [Step(r.index, f, a.written)]
    ensures Accounted(n)
  {
    Rewrite(r, a, f, n);
    assert Holds(n, |r.trace|);
  }

  /** A loop step keeps the trace accounted for. */
  lemma StepKeeps<W>(r: Run<W>, dt: nat)
    requires Good(r) && r.status.Running? && Continues(r) && Accounted(r)
    ensures Accounted(StepPhase(r, dt))
  {
    var n := StepPhase(r, dt);
    if n.status.Running? {
      StepAccounted(r, Advance(r.groups[r.index], Fraction(r, dt), r.world).value, Fraction(r, dt), n);
    } else {
      FaultKeeps(r, n.status.error, n.world);
    }
  }

  /** Leaving a phase keeps the trace accounted for, given that the events
      so far hold once the phase is behind the run. */
  lemma LeaveKeeps<W>(m: Run<W>)
    requires Good(m) && m.status.Running?
    requires forall i :: 0 <= i < |m.trace| ==> m.trace[i].group <= m.index && Holds(Leave(m), i)
    ensures Accounted(Leave(m))
  {
  }

  /** The end of a phase keeps the trace accounted for. */
  lemma FinishKeeps<W>(r: Run<W>)
    requires Good(r) && r.status.Running? && !Continues(r) && Accounted(r)
    ensures Accounted(Finish(r))
  {
    var g := r.groups[r.index];
    if ShouldStop(g, r.world) {
      assert Finish(r) == Leave(r);
      forall i | 0 <= i < |r.trace|
        ensures r.trace[i].group <= r.index && Holds(Leave(r), i)
      {
        assert Holds(r, i);
        Carry(r, Leave(r), i);
      }
      LeaveKeeps(r);
    } else if Advance(g, 1.0, r.world).Ok? {
      var a := Advance(g, 1.0, r.world).value;
      var m := r.(groups := r.groups[r.index := a.group], world := a.world,
                  trace := r.trace + [Snap(r.index, a.written)]);
      assert Finish(r) == Leave(m);
      var n := Leave(m);
      Rewrite(r, a, 1.0, n);
      assert Holds(n, |r.trace|);
      forall i | 0 <= i < |m.trace|
        ensures m.trace[i].group <= m.index
      {
        if i < |r.trace| {
          assert Holds(r, i);
        }
      }
      LeaveKeeps(m);
    } else {
      FaultKeeps(r, Advance(g, 1.0, r.world).error, Finish(r).world);
    }
  }

  /** A resumption keeps the trace accounted for. */
  lemma {:induction false} ResumeKeeps<W>(r: Run<W>, dt: nat)
    requires Good(r) && Accounted(r)
    ensures Accounted(Resume(r, dt))
    decreases |r.groups| - r.index
  {
    if r.status.Running? {
      if Continues(r) {
        StepKeeps(r, dt);
      } else {
        FinishKeeps(r);
        var f := Finish(r);
        if f.status.Running? {
          ResumeKeeps(f, dt);
        }
      }
    }
  }

  /** What the host does to the world between frames leaves the trace
      accounted for: no event depends on the current world. */
  lemma HostKeeps<W>(r: Run<W>, change: W -> W)
    requires Good(r) && Accounted(r)
    ensures Accounted(Host(r, change))
  {
    var n := Host(r, change);
    forall i | 0 <= i < |r.trace|
      ensures Holds(n, i)
    {
      assert Holds(r, i);
    }
  }

  /** Any number of frames keeps the trace accounted for. */
  lemma {:induction false} DriveKeeps<W>(r: Run<W>, frames: seq<Frame<W>>)
    requires Good(r) && Accounted(r)
    ensures Accounted(Drive(r, frames))
    decreases |frames|
  {
    if frames != [] {
      var h := Host(r, frames[0].host);
      HostKeeps(r, frames[0].host);
      ResumeKeeps(h, frames[0].dt);
      DriveKeeps(Resume(h, frames[0].dt), frames[1..]);
    }
  }
}

=== FILE: tweeners.dfy ===
/** `Tweener<T>`: one animated channel of the world, its easing and its
    value range, and the step `TweenValue` that writes the eased blend of
    the range through the channel's setter.

    A channel is a getter and a setter over the world `W`. The sub-channel
    tweeners (`Vector3Tweener.X`, `ColorTweener.A`, `QuaternionTweener.Euler`,
    ...) are channels derived from a parent: read the parent and project,
    or read the parent, replace a part and write the parent back. */
module Tweeners {
  import opened Results
  import opened Values
  import opened Easings
  import opened Ranges

  /** The `Func<T>` getter and `Action<T>` setter a tweener is built on. */
  datatype Accessor<!W> = Accessor(read: W -> Value, write: (W, Value) -> W)

  /** Writing `v` in world `w` and reading back gives `v`: the property a
      plain property such as `transform.position` has. */
  predicate ReadsBack<W>(a: Accessor<W>, w: W, v: Value) {
    a.read(a.write(w, v)) == v
  }

  /** A channel carved out of a parent channel. */
  function Derived<W>(parent: Accessor<W>, project: Value -> Value, inject: (Value, Value) -> Value): Accessor<W> {
    Accessor(w => project(parent.read(w)), (w, v) => parent.write(w, inject(parent.read(w), v)))
  }

  /** The component setter's body: copy the parent value and overwrite one
      component with the float written to the sub-channel. Only a
      `FloatTweener` writes here, so the value is always a `Float`. */
  function Replace(v: Value, p: Part, x: Value): Value {
    if x.Float? then WithComponent(v, p, x.f) else v
  }

  /** `Vector3Tweener.X/Y/Z` and `ColorTweener.R/G/B/A`. */
  function SubChannel<W>(parent: Accessor<W>, p: Part): Accessor<W> {
    Derived(parent, v => Float(Component(v, p)), (v, x) => Replace(v, p, x))
  }

  /** `QuaternionTweener.Euler`, with Unity's conversion between a rotation
      and its Euler angles supplied by the caller. */
  function Euler<W>(parent: Accessor<W>, toEuler: Value -> Value, fromEuler: (Value, Value) -> Value): Accessor<W> {
    Derived(parent, toEuler, fromEuler)
  }

  /** A sub-channel write changes the one component it owns and nothing
      else of the parent value, and reads back what it wrote. */
  lemma SubChannelWritesOneComponent<W>(parent: Accessor<W>, p: Part, w: W, c: real)
    requires HasPart(parent.read(w), p)
    requires ReadsBack(parent, w, WithComponent(parent.read(w), p, c))
    ensures SubChannel(parent, p).read(SubChannel(parent, p).write(w, Float(c))) == Float(c)
    ensures SameShape(parent.read(SubChannel(parent, p).write(w, Float(c))), parent.read(w))
    ensures forall q :: q != p ==>
              Component(parent.read(SubChannel(parent, p).write(w, Float(c))), q) == Component(parent.read(w), q)
    ensures Component(parent.read(w), p) == c ==>
              parent.read(SubChannel(parent, p).write(w, Float(c))) == parent.read(w)
  {
    var written := WithComponent(parent.read(w), p, c);
    assert SubChannel(parent, p).write(w, Float(c)) == parent.write(w, written);
  }

  /** A derived channel reads back whatever its projection recovers from
      its injection, given that the parent reads back. */
  lemma DerivedReadsBack<W>(parent: Accessor<W>, project: Value -> Value, inject: (Value, Value) -> Value, w: W, v: Value)
    requires ReadsBack(parent, w, inject(parent.read(w), v))
    requires project(inject(parent.read(w), v)) == v
    ensures ReadsBack(Derived(parent, project, inject), w, v)
  {
  }

  /** A tweener before its range is chosen: the channel and the easing it
      will use, `Easing.Default` unless one is given. */
  datatype Channel<!W> = Channel(access: Accessor<W>, easing: Easing)

  /** `TweenerFactory.Float/Int32/Vector3/Color/Quaternion`: a new tweener
      starts with the default easing. */
  function NewChannel<W>(access: Accessor<W>): (c: Channel<W>)
    ensures c.access == access && c.easing == Linear
  {
    Channel(access, Default)
  }

  /** A tweener with a range, as it sits in a group. */
  datatype Tweener<!W> = Tweener(access: Accessor<W>, easing: Easing, range: Range<W>)

  /** The four ways to give a tweener its range: `To(v)`, `Add(d)`,
      `From(a).To(v)` and `From(a).Add(d)`. */
  datatype Motion = To(to: Value) | By(offset: Value) | FromTo(start: Value, to: Value) | FromBy(start: Value, offset: Value)

  /** The builder methods of `Tweener<T>` and `ValueRangeBuilder`: set the
      easing when one is passed, and install a fresh lazy range whose start
      comes from the channel's getter, or from the explicit start of a
      `From(...)` builder. Nothing is read and nothing is added here, so a
      quaternion `Add` is accepted at this point. */
  function Configure<W>(c: Channel<W>, m: Motion, e: Option<Easing>): (t: Tweener<W>)
    ensures t.access == c.access
    ensures t.easing == (if e.Some? then e.value else c.easing)
    ensures Valid(t.range) && !t.range.Captured() && t.range.providerCalls == 0
    ensures m.To? || m.FromTo? ==> t.range.target == Fixed(m.to)
    ensures m.By? || m.FromBy? ==> t.range.target == Offset(m.offset)
    ensures m.To? || m.By? ==> t.range.provider == c.access.read
  {
    var easing := if e.Some? then e.value else c.easing;
    match m
    case To(v) => Tweener(c.access, easing, Lazy(c.access.read, Fixed(v)))
    case By(d) => Tweener(c.access, easing, Lazy(c.access.read, Offset(d)))
    case FromTo(a, v) => Tweener(c.access, easing, Lazy(_ => a, Fixed(v)))
    case FromBy(a, d) => Tweener(c.access, easing, Lazy(_ => a, Offset(d)))
  }

  /** A `From(a)` builder's start is `a` in every world: the getter is
      never consulted. */
  lemma ExplicitStartIgnoresWorld<W>(c: Channel<W>, m: Motion, e: Option<Easing>, w: W)
    requires m.FromTo? || m.FromBy?
    ensures Configure(c, m, e).range.provider(w) == m.start
  {
  }

  /** The result of one `TweenValue`: the new world, the tweener with its
      range state after the reads, and the value handed to the setter. */
  datatype Tweened<!W> = Tweened(world: W, tweener: Tweener<W>, written: Value)

  /** `Tweener<T>.TweenValue`: ease the fraction, read `From` then `To`
      (the first read captures the start in the current world), blend
      without clamping and write through the setter. */
  function TweenValue<W>(t: Tweener<W>, fraction: real, w: W): (o: Outcome<Tweened<W>>)
    requires Valid(t.range)
    ensures o.Ok? ==>
              && o.value.tweener.access == t.access
              && o.value.tweener.easing == t.easing
              && o.value.tweener.range.provider == t.range.provider
              && o.value.tweener.range.target == t.range.target
              && Valid(o.value.tweener.range)
              && o.value.tweener.range.Captured()
              && o.value.world == t.access.write(w, o.value.written)
              && o.value.written ==
                   Lerp(o.value.tweener.range.cache.value.from, EndValue(o.value.tweener.range), Ease(t.easing, fraction))
    // the start is captured in the world of the first step, then kept
    ensures o.Ok? && !t.range.Captured() ==> o.value.tweener.range.cache.value.from == t.range.provider(w)
    ensures t.range.Captured() ==> o.Ok? && o.value.tweener == t
    // a fraction at or past the end writes exactly `To`
    ensures o.Ok? && 1.0 <= fraction ==> o.value.written == EndValue(o.value.tweener.range)
    ensures o.Ok? && fraction <= 0.0 && SameShape(o.value.tweener.range.cache.value.from, EndValue(o.value.tweener.range)) ==>
              o.value.written == o.value.tweener.range.cache.value.from
    // the only exception is a lazily evaluated `Add` that has none
    ensures o.Thrown? <==>
              !t.range.Captured() && t.range.target.Offset? && Add(t.range.provider(w), t.range.target.offset).Thrown?
    ensures o.Thrown? ==> o.error == NotSupported
  {
    var eased := Ease(t.easing, fraction);
    var from :- ReadFrom(t.range, w);
    // `From` is captured now, so `To` reads the cache and cannot throw
    var to := ReadTo(from.range, w).value;
    var v := Lerp(from.value, to.value, eased);
    Ok(Tweened(t.access.write(w, v), t.(range := to.range), v))
  }

  /** A quaternion channel configured with `Add` is accepted by the
      builder and throws `NotSupportedException` on its first step, at
      whatever fraction. */
  lemma QuaternionAddThrowsOnFirstStep<W>(c: Channel<W>, d: Value, e: Option<Easing>, fraction: real, w: W)
    requires c.access.read(w).Quaternion?
    ensures TweenValue(Configure(c, By(d), e), fraction, w) == Thrown(NotSupported)
  {
  }

  /** A step at the end of the range leaves the channel reading exactly
      `To` when the channel reads back what it is given. */
  lemma EndStepLandsOnTo<W>(t: Tweener<W>, fraction: real, w: W)
    requires Valid(t.range) && 1.0 <= fraction
    requires TweenValue(t, fraction, w).Ok?
    requires ReadsBack(t.access, w, TweenValue(t, fraction, w).value.written)
    ensures t.access.read(TweenValue(t, fraction, w).value.world) == EndValue(TweenValue(t, fraction, w).value.tweener.range)
  {
  }

  /** The blend is not clamped, so an easing that leaves [0, 1] carries the
      value outside its range: a float channel tweened `To` a higher value
      with `Back` `In` is, halfway through, below where it started. */
  lemma {:induction false} BackInDipsBelowStart<W>(c: Channel<W>, target: real, w: W)
    requires c.access.read(w).Float? && c.access.read(w).f < target
    ensures
      var o := TweenValue(Configure(c, To(Float(target)), Some(Poly(Back, In))), 0.5, w);
      o.Ok? && o.value.written.Float? && o.value.written.f < c.access.read(w).f
  {
    BackOvershoots();
    LerpIsUnclamped(c.access.read(w).f, target, Ease(Poly(Back, In), 0.5));
  }
}

=== FILE: values.dfy ===
/** The animatable value types and the two operations every tweener type
    supplies: `LerpUnclamped` (here `Lerp`) and `Add`.

    Each C# tweener class is generic over one value type; the engine here
    is monomorphic, so the five value types of `Tween.cs` are the
    constructors of one datatype. A tweener only ever blends or adds two
    values of its own type, which C#'s static typing guarantees; for a pair
    of different shapes `Lerp` returns `to` and `Add` throws, and no
    well-typed tweener reaches either case. */
module Values {
  import opened Results

  datatype Value =
    | Float(f: real)
    | Int32(n: int)
    | Vector3(x: real, y: real, z: real)
    | Color(r: real, g: real, b: real, a: real)
    | Quaternion(qx: real, qy: real, qz: real, qw: real)

  /** Both values belong to the same value type. */
  predicate SameShape(u: Value, v: Value) {
    match (u, v)
    case (Float(_), Float(_)) => true
    case (Int32(_), Int32(_)) => true
    case (Vector3(_, _, _), Vector3(_, _, _)) => true
    case (Color(_, _, _, _), Color(_, _, _, _)) => true
    case (Quaternion(_, _, _, _), Quaternion(_, _, _, _)) => true
    case _ => false
  }

  /** The C# `(int)` conversion of a floating-point value: truncation
      toward zero, not rounding and not floor. */
  function Trunc(x: real): (n: int)
    ensures 0.0 <= x ==> 0 <= n && n as real <= x < n as real + 1.0
    ensures x < 0.0 ==> n <= 0 && n as real - 1.0 < x <= n as real
  {
    if x >= 0.0 then x.Floor else -((-x).Floor)
  }

  /** `Mathf.LerpUnclamped`: the straight-line blend, with no clamping of `t`. */
  function Blend(a: real, b: real, t: real): real {
    a + (b - a) * t
  }

  lemma BlendEndpoints(a: real, b: real, t: real)
    ensures Blend(a, b, 0.0) == a && Blend(a, b, 1.0) == b
    ensures 0.0 <= t <= 1.0 && a <= b ==> a <= Blend(a, b, t) <= b
    ensures 0.0 <= t <= 1.0 && b <= a ==> b <= Blend(a, b, t) <= a
  {
    if 0.0 <= t <= 1.0 {
      ProductSign(b - a, t);
      ProductSign(b - a, 1.0 - t);
      assert (b - a) - (b - a) * t == (b - a) * (1.0 - t);
    }
  }

  lemma ProductSign(x: real, y: real)
    ensures 0.0 <= y && 0.0 <= x ==> 0.0 <= x * y
    ensures 0.0 <= y && x <= 0.0 ==> x * y <= 0.0
  {
  }

  /** `Int32Tweener.LerpUnclamped`: the difference is scaled in floating
      point and the increment is truncated toward zero, so the result is
      rounded toward `from`. */
  function Int32Lerp(from: int, to: int, t: real): (n: int)
    ensures t == 0.0 ==> n == from
    ensures t == 1.0 ==> n == to
    ensures 0.0 <= t <= 1.0 && from <= to ==> from <= n <= to
    ensures 0.0 <= t <= 1.0 && to <= from ==> to <= n <= from
    // the truncated step never goes past the exact blend, and misses it by less than one
    ensures 0.0 <= (to - from) as real * t ==>
              from <= n && (n as real) <= Blend(from as real, to as real, t) < (n as real) + 1.0
    ensures (to - from) as real * t < 0.0 ==>
              n <= from && (n as real) - 1.0 < Blend(from as real, to as real, t) <= (n as real)
  {
    var step := (to - from) as real * t;
    ProductSign((to - from) as real, t);
    ProductSign((to - from) as real, 1.0 - t);
    assert (to - from) as real - step == (to - from) as real * (1.0 - t);
    from + Trunc(step)
  }

  /** `LerpUnclamped` of the tweener whose value type is the shape of the
      arguments; vectors, colours and quaternions blend component-wise. */
  function Lerp(from: Value, to: Value, t: real): (v: Value)
    ensures SameShape(v, to)
    ensures t == 1.0 ==> v == to
    ensures t == 0.0 && SameShape(from, to) ==> v == from
    // every other fraction, inside [0, 1] or not, gives the straight-line
    // blend of each component; nothing is clamped
    ensures SameShape(from, to) && to.Float? ==> v == Float(Blend(from.f, to.f, t))
    ensures SameShape(from, to) && to.Int32? ==> v == Int32(Int32Lerp(from.n, to.n, t))
    ensures SameShape(from, to) ==> forall p :: HasPart(to, p) ==>
              Component(v, p) == Blend(Component(from, p), Component(to, p), t)
    ensures SameShape(from, to) && to.Quaternion? ==>
              && v.qx == Blend(from.qx, to.qx, t) && v.qy == Blend(from.qy, to.qy, t)
              && v.qz == Blend(from.qz, to.qz, t) && v.qw == Blend(from.qw, to.qw, t)
  {
    if !SameShape(from, to) then to
    else
      match to
      case Float(b) => Float(Blend(from.f, b, t))
      case Int32(b) => Int32(Int32Lerp(from.n, b, t))
      case Vector3(ux, uy, uz) => Vector3(Blend(from.x, ux, t), Blend(from.y, uy, t), Blend(from.z, uz, t))
      case Color(ur, ug, ub, ua) =>
        Color(Blend(from.r, ur, t), Blend(from.g, ug, t), Blend(from.b, ub, t), Blend(from.a, ua, t))
      case Quaternion(ux, uy, uz, uw) =>
        Quaternion(Blend(from.qx, ux, t), Blend(from.qy, uy, t), Blend(from.qz, uz, t), Blend(from.qw, uw, t))
  }

  /** `Add` of each tweener type: component-wise sum, except that the
      quaternion tweener throws `NotSupportedException`. */
  function Add(u: Value, v: Value): (o: Outcome<Value>)
    ensures o.Thrown? <==> u.Quaternion? || !SameShape(u, v)
    ensures o.Thrown? ==> o.error == NotSupported
    ensures o.Ok? ==> SameShape(o.value, u)
    // the sum, component by component
    ensures o.Ok? && u.Float? ==> o.value == Float(u.f + v.f)
    ensures o.Ok? && u.Int32? ==> o.value == Int32(u.n + v.n)
    ensures o.Ok? ==> forall p :: HasPart(u, p) ==> Component(o.value, p) == Component(u, p) + Component(v, p)
  {
    match (u, v)
    case (Float(a), Float(b)) => Ok(Float(a + b))
    case (Int32(a), Int32(b)) => Ok(Int32(a + b))
    case (Vector3(ax, ay, az), Vector3(ux, uy, uz)) => Ok(Vector3(ax + ux, ay + uy, az + uz))
    case (Color(ar, ag, ab, aa), Color(br, bg, bb, ba)) =>
      Ok(Color(ar + br, ag + bg, ab + bb, aa + ba))
    case _ => Thrown(NotSupported)
  }

  /** The zero of each additive value type. */
  function Zero(v: Value): Value {
    match v
    case Float(_) => Float(0.0)
    case Int32(_) => Int32(0)
    case Vector3(_, _, _) => Vector3(0.0, 0.0, 0.0)
    case Color(_, _, _, _) => Color(0.0, 0.0, 0.0, 0.0)
    case Quaternion(_, _, _, _) => Quaternion(0.0, 0.0, 0.0, 0.0)
  }

  /** `Add` is commutative and has a zero on every type that supports it,
      so an offset range `By(d)` ends where `From + d` says, and `By(0)`
      ends where it starts. */
  lemma AddLaws(u: Value, v: Value)
    ensures Add(u, v) == Add(v, u) || u.Quaternion? || v.Quaternion?
    ensures !u.Quaternion? ==> Add(u, Zero(u)) == Ok(u)
  {
  }

  /** `LerpUnclamped` does not clamp: below 0 a float blend runs back past
      `from`, above 1 it runs on past `to`, and only inside [0, 1] does it
      stay between the ends. */
  lemma {:induction false} LerpIsUnclamped(a: real, b: real, t: real)
    requires a < b
    ensures t < 0.0 ==> Lerp(Float(a), Float(b), t).f < a
    ensures 1.0 < t ==> b < Lerp(Float(a), Float(b), t).f
    ensures 0.0 <= t <= 1.0 ==> a <= Lerp(Float(a), Float(b), t).f <= b
  {
    BlendEndpoints(a, b, t);
    if t < 0.0 {
      assert Blend(a, b, t) - a == (b - a) * t;
      ProductNegative(b - a, t);
    } else if 1.0 < t {
      assert Blend(a, b, t) - b == (b - a) * (t - 1.0);
      ProductPositive(b - a, t - 1.0);
    }
  }

  lemma ProductNegative(x: real, y: real)
    requires 0.0 < x && y < 0.0
    ensures x * y < 0.0
  {
  }

  lemma ProductPositive(x: real, y: real)
    requires 0.0 < x && 0.0 < y
    ensures 0.0 < x * y
  {
  }

  /** An offset range from `u` by `d` ends at `Add(u, d)`; the blend toward
      that end at fraction `t` has moved by `t` times `d` in every
      component (an `int` by the truncated `t * d`). */
  lemma AddThenLerp(u: Value, d: Value, t: real)
    requires Add(u, d).Ok?
    ensures u.Float? ==> Lerp(u, Add(u, d).value, t) == Float(u.f + d.f * t)
    ensures u.Int32? ==> Lerp(u, Add(u, d).value, t) == Int32(u.n + Trunc(d.n as real * t))
    ensures forall p :: HasPart(u, p) ==>
              Component(Lerp(u, Add(u, d).value, t), p) == Component(u, p) + Component(d, p) * t
  {
    if u.Float? {
      AddThenLerpFloat(u, d, t);
    } else if u.Int32? {
      AddThenLerpInt32(u, d, t);
    } else {
      AddThenLerpParts(u, d, t);
    }
  }

  lemma AddThenLerpFloat(u: Value, d: Value, t: real)
    requires Add(u, d).Ok? && u.Float?
    ensures Lerp(u, Add(u, d).value, t) == Float(u.f + d.f * t)
  {
    BlendByOffset(u.f, d.f, t);
  }

  lemma AddThenLerpInt32(u: Value, d: Value, t: real)
    requires Add(u, d).Ok? && u.Int32?
    ensures Lerp(u, Add(u, d).value, t) == Int32(u.n + Trunc(d.n as real * t))
  {
    assert Add(u, d).value.n - u.n == d.n;
  }

  /** The component clause of `AddThenLerp`, for vectors and colours. */
  lemma AddThenLerpParts(u: Value, d: Value, t: real)
    requires Add(u, d).Ok?
    ensures forall p :: HasPart(u, p) ==>
              Component(Lerp(u, Add(u, d).value, t), p) == Component(u, p) + Component(d, p) * t
  {
    forall p | HasPart(u, p)
      ensures Component(Lerp(u, Add(u, d).value, t), p) == Component(u, p) + Component(d, p) * t
    {
      AddThenLerpPart(u, d, t, p);
    }
  }

  lemma AddThenLerpPart(u: Value, d: Value, t: real, p: Part)
    requires Add(u, d).Ok? && HasPart(u, p)
    ensures Component(Lerp(u, Add(u, d).value, t), p) == Component(u, p) + Component(d, p) * t
  {
    var e := Add(u, d).value;
    var cu, cd, ce := Component(u, p), Component(d, p), Component(e, p);
    assert ce == cu + cd;
    assert SameShape(u, e) && HasPart(e, p);
    assert Component(Lerp(u, e, t), p) == Blend(cu, ce, t);
    BlendByOffset(cu, cd, t);
  }

  lemma BlendByOffset(a: real, b: real, t: real)
    ensures Blend(a, a + b, t) == a + b * t
  {
    assert (a + b) - a == b;
  }

  /** The channels of the composite types that have their own sub-tweeners:
      `Vector3Tweener.X/Y/Z` and `ColorTweener.R/G/B/A`. */
  datatype Part = X | Y | Z | R | G | B | A

  predicate HasPart(v: Value, p: Part) {
    match v
    case Vector3(_, _, _) => p == X || p == Y || p == Z
    case Color(_, _, _, _) => p == R || p == G || p == B || p == A
    case _ => false
  }

  /** Reads one component (`Value.x`, `Value.a`, ...); zero where absent. */
  function Component(v: Value, p: Part): real {
    match (v, p)
    case (Vector3(x, _, _), X) => x
    case (Vector3(_, y, _), Y) => y
    case (Vector3(_, _, z), Z) => z
    case (Color(r, _, _, _), R) => r
    case (Color(_, g, _, _), G) => g
    case (Color(_, _, b, _), B) => b
    case (Color(_, _, _, a), A) => a
    case _ => 0.0
  }

  /** The body of a sub-channel setter: copy the value, overwrite one
      component (`color.a = v`), keep the rest. */
  function WithComponent(v: Value, p: Part, c: real): (w: Value)
    ensures SameShape(w, v)
    ensures HasPart(v, p) ==> Component(w, p) == c
    ensures forall q :: q != p ==> Component(w, q) == Component(v, q)
    ensures Component(v, p) == c ==> w == v
  {
    match (v, p)
    case (Vector3(_, y, z), X) => Vector3(c, y, z)
    case (Vector3(x, _, z), Y) => Vector3(x, c, z)
    case (Vector3(x, y, _), Z) => Vector3(x, y, c)
    case (Color(_, g, b, a), R) => Color(c, g, b, a)
    case (Color(r, _, b, a), G) => Color(r, c, b, a)
    case (Color(r, g, _, a), B) => Color(r, g, c, a)
    case (Color(r, g, b, _), A) => Color(r, g, b, c)
    case _ => v
  }
}
